=== FILE: README.md ===
# Service-report store: a Dafny model

This project models the decision logic of a small Flask application. Field
technicians use it to write service reports ("relatórios"), attach photos to
them, and export them as PDF. The application keeps two SQLite tables:
`relatorios` has 21 free-text columns, and `fotos_relatorio` has the columns id,
relatorio_id, nome_arquivo, caminho_arquivo and titulo. Photo files live in an
`uploads` folder. The model keeps both tables as sequences of rows and the
folder as a set of file names. Every request handler that changes or reads them
becomes a pure function on that state:

- `salvar` (save a new report with its photos);
- `editar` POST (overwrite the fields, remove the marked photos, add new ones);
- `upload_foto` (single-photo upload behind an extension allow-list);
- `deletar_foto`;
- `ver` (view a report with its "safe" photo listing, which hides rows whose
  file is missing);
- `gerar_pdf` / `visualizar_pdf` (only the name of the PDF file and whether it
  is sent as an attachment or inline).

Modules, in dependency order:

| module | contents |
|---|---|
| `Wrappers` | `Option`, `Result` |
| `Text` | ASCII `str.lower`, `str.endswith`, `str.rfind`, `str(n)` for naturals |
| `Seqs` | order-preserving selection (`Filter`), first match (`First`), pairwise relations |
| `FileNames` | `os.path.splitext`'s extension, the stored photo name, the upload allow-list |
| `PdfNames` | the sanitiser and the fallback name for the PDF file |
| `Tables` | rows, the database, its invariant `Valid`, the effect of each SQL statement and file removal, the safe listing |
| `Handlers` | the request handlers, with commit and rollback |
| `Scenarios` | requests in sequence and worked examples of the form |

Transactions follow the code. A request works on an uncommitted database
(`Run`). An exception part-way through ends the request without `commit()`, so
the database goes back to its state at the start of the request. Two kinds of
exception are modelled:
- the imaging library cannot open or save an upload (`Storable` is false:
  the bytes are unreadable, or the stored name has no extension from which
  `img.save` could pick an encoder);
- the photo table does not exist.

File writes and removals are not transactional, so they survive the rollback:
- Each photo file is written (app.py:145) before its row is inserted
  (app.py:148). A rollback keeps every file already written (`Save`,
  `UploadPhoto`), and an edit that fails after its removals has already
  deleted the marked photos' files while their rows come back
  (`EditFailureOrphansRemoved`).
- The safe listing tests whether the file named in the `nome_arquivo` column
  (`foto[2]`, app.py:86) exists, not the one in `caminho_arquivo`. The model
  tests `fileName`. Under the invariant `Valid` the two columns are always
  equal.

Inputs that the program gets from the environment are parameters of the model:
- the UUID stems (`stems`, one per upload position);
- the clock reading `now` for `created_at`;
- whether the imaging library can open and encode each image (`readable`);
- Python's `str.isalnum` (`isAlnum`). Only concrete results assume that it
  agrees with ASCII letters and digits on ASCII characters (`AgreesOnAscii`).

Two gaps in the application are kept as they are and stated as results:
- `upload_foto` stores a photo for any report id without checking that the
  report exists (`PhotoUploadedAheadAppearsInNewReport`).
- `editar` removes every marked photo id, whichever report the photo belongs
  to (`EditCommits`).

## Model

Three small definitions have no row of their own, because their behaviour is
stated by the members that use them: `Tables.Listed` (which photo rows the
listing keeps) by `SafeListing` and `SafeListingAppend`; `Handlers.TitleFor`
(titles paired by position, with a fallback) by `PlannedRowsAt`, `SaveCommits`
and `EditCommits`; `Handlers.Commit` (commit or roll back the database, keep
the folder) by the contracts of `Save`, `Edit`, `UploadPhoto` and
`EditFailureOrphansRemoved`.

| member | source | states |
|---|---|---|
| Text.DecimalRoundTrip | app.py:288 | the decimal rendering of a report id in the fallback `OS_<id>` reads back as that id |
| Text.DecimalInjective | app.py:288 | different report ids give different decimal renderings |
| Text.LowerIdempotent | app.py:213 | lower-casing an already lower-cased name changes nothing |
| Text.LowerCharKeepsSeparators | app.py:133 | lower-casing neither creates nor removes a `.` or `/`, so it commutes with the extension split |
| Text.Lower | app.py:213 | lower-casing keeps the length, leaves no upper-case letter, moves each ASCII capital 32 code points down and keeps every other character |
| Text.Decimal | app.py:288 | `str(n)` of a natural is a non-empty string of digits that starts with `0` only for zero |
| Text.LastIndex | app.py:219 | the `rfind` position that `splitext` uses is an occurrence of the character with none after it, or -1 when there is none |
| Text.LastIndexIs | app.py:219 | the last occurrence is unique: any index with that character and none after it is the result |
| FileNames.Extension | app.py:219 | the extension is empty or starts with a dot, is a proper suffix of the name, and holds no further dot or slash |
| FileNames.StoredName | app.py:219 | the stored name is the stem followed by exactly as many characters as the upload's extension has: a dot and then no upper-case letter, dot or slash (the same construction is at lines 133 and 524) |
| FileNames.NoDotNoExtension | app.py:219 | a name without a dot has no extension |
| FileNames.StoredNameKeepsExtension | app.py:219 | splitting the stored name `uuid + ext.lower()` again gives back exactly the lower-cased extension of the upload (the same construction is at lines 133 and 524) |
| FileNames.StoredNameHasNoSlash | app.py:219-220 | the stored name has no `/`, so joining it to the upload folder stays inside that folder |
| FileNames.CheckUpload | app.py:203-215 | rejects a missing `foto` part, an empty file name, and a name whose lower-cased form ends in none of `.png .jpg .jpeg .gif .webp`, each with its own reason, and accepts exactly the other names; an accepted name's stored extension is one of the five or empty |
| FileNames.AcceptedExtension | app.py:213-219 | a name that passes the allow-list is stored with an allowed extension or with none at all |
| FileNames.AllowedSuffixAccepted | app.py:208-215 | any non-empty name whose lower-cased form ends in an allowed extension passes |
| FileNames.CheckUploadIgnoresCase | app.py:213 | the check gives the same answer for a name and for its lower-cased form |
| FileNames.DotOnlyNameStoredWithoutExtension | app.py:213-219 | the name `.png` passes the check, but `splitext` sees it as a hidden file, so the name it would be saved under is the bare UUID |
| FileNames.UpperCaseExtensionLowered | app.py:213-219 | `Foto.JPG` passes and is stored as `<uuid>.jpg` |
| FileNames.OtherExtensionRejected | app.py:213-215 | `notes.txt` is refused as an unsupported format |
| PdfNames.Sanitize | app.py:289 | the sanitised order number keeps the length and the position of every character: an alphanumeric character stays, any other becomes `_` |
| PdfNames.BaseName | app.py:288 | the base name is the order number when it is non-empty, and otherwise `OS_` followed by the decimal digits of the report id, which read back as the id and start with `0` only for id 0 |
| PdfNames.SanitizeSafeChars | app.py:289 | only alphanumerics and `_` appear in a sanitised name |
| PdfNames.SanitizeFixesSafe | app.py:289 | a name made only of alphanumerics and `_` is left unchanged |
| PdfNames.SanitizeIdempotent | app.py:289 | sanitising twice is the same as sanitising once |
| PdfNames.SanitizeAppend | app.py:289 | sanitising works character by character: it distributes over concatenation |
| PdfNames.AsciiKept | app.py:289 | ASCII letters and digits pass through unchanged |
| PdfNames.PdfFileName | app.py:288-293 | the name is `relatorio_` + a middle part + `.pdf`, 14 characters longer than the base name; the middle has only alphanumerics and `_` and keeps every alphanumeric character of the base name in place |
| PdfNames.FallbackBaseIsSafe | app.py:288-289 | the fallback base `OS_<id>` passes through the sanitiser unchanged |
| PdfNames.FallbackFileName | app.py:288-293 | a missing or empty order number gives `relatorio_OS_<id>.pdf` |
| PdfNames.FallbackFileNamesDistinct | app.py:288-293 | two reports without an order number never share a PDF name |
| PdfNames.OrderNumberWithPunctuation | app.py:321-326 | order number `OS 2024/01` gives `relatorio_OS_2024_01.pdf` |
| Tables.EmptyDbValid | app.py:22-65 | freshly created, empty tables satisfy the invariant: increasing ids below the counters, equal name columns, no file shared by two rows |
| Tables.FindReport | app.py:187-188 | the lookup finds a row with the requested id, and finds nothing exactly when no row has that id |
| Tables.FindPhoto | app.py:403-404 | as FindReport, for photo rows |
| Tables.InsertReport | app.py:115-122 | the insert keeps every existing report row in place, appends one row under the next id with the given fields and time, advances the report counter by one and leaves the photo table alone |
| Tables.InsertReportEffect | app.py:115-122 | the inserted report keeps the invariant, is found under the new `lastrowid`, which was unused, and every other lookup is unchanged |
| Tables.UpdateReport | app.py:492-499 | the update keeps every row's id and creation time and the number of rows, replaces all fields exactly on the rows with that id, and changes nothing for an unknown id |
| Tables.UpdateReportValid | app.py:492-499 | updating a report keeps the invariant |
| Tables.UpdateReportEffect | app.py:492-499 | after the update, the lookup by that id finds the old row with the new fields, or still nothing |
| Tables.UpdateReportFound | app.py:492-499 | in a table without repeated ids, the updated row is the one found |
| Tables.InsertPhotoValid | app.py:243-244 | inserting a photo row under a name no row uses keeps the invariant, under an id no row has |
| Tables.InsertPhotoAppends | app.py:148-151 | the insert keeps every existing photo row in place, appends one row under the next id with the stored name in both name columns, advances the photo counter by one and leaves the report table alone (the same statement is at lines 243-244) |
| Tables.DropPhoto | app.py:403-416 | dropping photo `id` keeps exactly the rows with another id, changes nothing else in the tables, and removes at most one file, that of a row with that id; an unknown id leaves the folder as it was (the same steps are at lines 506-514) |
| Tables.DropPhotoEffect | app.py:403-416 | deleting the photo at index k removes exactly that row, keeps the others in order, removes exactly its file, and keeps the invariant |
| Tables.DropPhotoUnknown | app.py:506-514 | deleting an id that no row has changes neither the table nor the folder |
| Tables.DropPhotoValid | app.py:506-514 | in a valid table, deleting an id removes the rows with that id and exactly their files, and keeps the invariant |
| Tables.LastInsertedFound | app.py:403-410 | right after an insert, the new id finds exactly the new row, and deleting by it leaves the old rows |
| Tables.DropLastInserted | app.py:403-416 | right after an insert the new id finds the new row, and deleting the row just inserted gives back the table and the folder; only the id counter has moved on |
| Tables.SafeListing | app.py:71-95 | the listing holds exactly the rows of the report whose file is present, and is empty when the photo table does not exist |
| Tables.SafeListingAppend | app.py:81-89 | the listing keeps stored row order: listing two parts is listing the first, then the second |
| Tables.SafeListingInOrder | app.py:81-89 | in a valid table the listing comes in increasing photo id order |
| Handlers.Storable | app.py:138-145 | whether the imaging library opens and saves an upload: the bytes are readable (`readable`) and the name has an extension from which `img.save` picks its encoder, `readable && Extension(filename) != ""`; the same steps are at lines 228-236 and 527-534, and this predicate decides the faults of `Ingest`, `Save`, `Edit` and `UploadPhoto` |
| Handlers.Ingest | app.py:138-151 | storing one upload leaves the report table alone and writes at most its own file; it stops the request exactly when the image cannot be stored (unreadable, or no extension to pick an encoder from) or the photo table is missing, and a request already stopped is left as it is; an image that cannot be stored writes nothing, a missing photo table leaves the written file behind, and a success inserts the photo row and writes the file |
| Handlers.NameAtIs | app.py:129-133 | the upload at position j is stored under stem j followed by its own lower-cased extension |
| Handlers.NonEmptyFrom | app.py:129-130 | the upload positions that are processed carry a file name |
| Handlers.NonEmptyFromIncreasing | app.py:129-130 | uploads are processed in increasing position order, each at most once |
| Handlers.NonEmptyFromComplete | app.py:129-130 | every upload with a file name is processed |
| Handlers.PlannedRowsAt | app.py:129-151 | the k-th new row is the row of the k-th named upload, with id `next + k`, its stored name in both name columns, and the title at that upload's position or the fallback |
| Handlers.AddUploads | app.py:129-151 | the photo loop leaves the reports alone, writes only planned files, and stops with a fault exactly when some named upload cannot be stored or the photo table is missing |
| Handlers.AddUploadsSucceeds | app.py:129-151 | with a photo table and every named upload storable, the loop appends exactly the planned rows, in upload order, and writes exactly their files |
| Handlers.PlannedRowsValid | app.py:148-151 | a batch stored under fresh names keeps the invariant |
| Handlers.RemoveAll | app.py:502-514 | the removal loop never adds files and removes no file beyond those of the rows with a listed id, keeps the reports and the photo id counter, and fails exactly when the photo table is missing and there is an id left to remove |
| Handlers.RemoveAllEffect | app.py:502-514 | the removal loop deletes exactly the rows whose id is listed, keeps the others in order, removes exactly their files, and skips unknown ids |
| Handlers.RemoveStep | app.py:504-514 | removing one id and then the rest is the same as removing all of them at once |
| Handlers.Save | app.py:104-157 | saving fails exactly when some named upload cannot be stored (unreadable, or no extension, as for `foto`) or the photo table is missing; a failure rolls the database back, keeps the files already there and adds none beyond the planned ones; a success returns the new report id and appends the report |
| Handlers.AddUploadsStopsAt | app.py:129-151 | with a photo table, the loop stops with an image fault at the first named upload that cannot be stored, and the folder has gained exactly the files of the named uploads before it |
| Handlers.SaveFailureKeepsWritten | app.py:104-157 | a save that stops at such an upload rolls the database back and leaves exactly the files of the named uploads before it in the folder |
| Handlers.SaveCommits | app.py:104-157 | a successful save appends the planned rows, titled by position or `Sem nome`, advances the photo counter by their number, writes their files, and keeps the invariant |
| Handlers.Edit | app.py:459-544 | an edit fails exactly when there are ids to remove or named uploads and the photo table is missing, or some named upload cannot be stored; a failure rolls the database back, while the upload folder has lost at most the files of the marked rows and gained at most the planned files; an unknown report id leaves every report row as it was |
| Handlers.EditCommits | app.py:466-544 | a successful edit updates the report, keeps the unmarked rows of any report in order followed by the new rows (titled `Sem título` when titles run out), deletes the marked rows' files, writes the new ones, and keeps the invariant |
| Handlers.EditFailureOrphansRemoved | app.py:502-541 | when an edit fails after its removals, the removed rows come back with the rollback but their files are gone, so the listing hides them |
| Handlers.UploadPhoto | app.py:199-254 | an upload that fails a check (no part, empty name, extension outside the allow-list) changes nothing and gives the first failed check; a success stores an untitled row under `<uuid><ext>` in both name columns for any report id, writes the file and returns its name; a missing photo table rolls back the database, leaves the file under `<uuid><ext>` behind and reports the crash; an image that cannot be stored (unreadable, or named `.png` and so saved without extension) changes nothing |
| Handlers.DeletePhoto | app.py:395-425 | deleting fails without change when the photo table is missing or no row has the id; a success means a row with that id existed, no row with it remains, and its file is gone |
| Handlers.DeleteFound | app.py:403-419 | deleting a photo that the lookup finds succeeds, with exactly the tables and folder that dropping its row and its file gives |
| Handlers.DeletePhotoEffect | app.py:403-419 | deleting the photo at index k removes exactly that row and its file and keeps the invariant; every other row is listed exactly when it was listed before |
| Handlers.OthersKeepTheirFiles | app.py:414-416 | removing one photo's file never takes away another row's file |
| Handlers.View | app.py:183-196 | the view is absent exactly when no report has the id; otherwise it shows that report with exactly its listed photos |
| Handlers.ExportPdf | app.py:268-297 | the PDF is refused exactly when no report has the id; otherwise it comes with the requested disposition and the name derived from that report's order number |
| Scenarios.ListingIgnoresUnusedFile | app.py:85-88 | a file in the folder that no row points at never shows up in a listing |
| Scenarios.UploadThenList | app.py:217-250 | after a successful single upload, the report's listing is the old listing followed by the new untitled row, and the invariant holds |
| Scenarios.DeleteUndoesUpload | app.py:395-419 | deleting the photo just uploaded gives back the store as it was; only the id counter has moved on |
| Scenarios.DeleteLastInserted | app.py:403-419 | deleting the row just inserted with its file gives back the tables and the folder |
| Scenarios.PlannedRowsListed | app.py:84-89 | rows saved for a report, whose files were written, are all listed for that report |
| Scenarios.SaveThenView | app.py:104-157 | provided no existing photo row already carries the new report id, viewing a freshly saved report shows its fields and exactly the form's photos, in upload order |
| Scenarios.ViewFound | app.py:191-196 | a report that the lookup finds is shown with its safe listing |
| Scenarios.ExportFound | app.py:277-293 | a report that the lookup finds is exported under the name derived from its order number |
| Scenarios.PhotoUploadedAheadAppearsInNewReport | app.py:241-246 | a photo uploaded for a report id that does not exist yet is stored anyway, and shows up in the report later saved under that id |
| Scenarios.DotOnlyUploadFails | app.py:213-254 | a file named `.png` passes the allow-list but is saved under a name without extension, which the imaging library refuses: the upload answers with an error and changes nothing |
| Scenarios.ExtensionlessUploadAbortsSave | app.py:129-157 | saving a form whose upload is named `foto` fails, and the new report is rolled back with it |
| Scenarios.EditReplacesPhoto | app.py:502-539 | an edit that marks the report's only listed photo and sends one titled upload leaves exactly the new photo listed |
| Scenarios.SinglePlannedRow | app.py:129-151 | one named upload plans one row, under its stored name and its title |
| Scenarios.SaveFormWalkThrough | app.py:104-157 | a form with an empty file part and two `Foto.JPG` parts but only two titles, saved into empty tables, gives report 1 with photos `u1.jpg` "Front" and `u2.jpg` "Sem nome"; the empty part uses up the first title; the PDF is `relatorio_OS_2024_01.pdf` |

## Left out

- Flask routing, templates, `flash` messages, redirects and JSON bodies: the model returns `Result` and `Option` values in place of HTTP responses and status codes.
- The `index` and `listar` routes: they only render (`listar` reads report columns sorted by `created_at`), and there is no decision logic to state.
- The GET branch of `editar` and the `debug_fotos` and `uploads` routes: they only read and render.
- `editar_foto`: base64 decoding and re-encoding an image in place is pixel work for the imaging library and changes no row or file name.
- PIL image processing (alpha flattening, `thumbnail` to 800×600, quality 85): `Upload.readable` stands for whether opening and saving succeed.
- Handlers.Storable: the model refuses only a stored name without an extension. Pillow's own table of extensions it can encode is not modelled, so for a non-empty extension Pillow cannot write (`.txt`, say) `readable` must be false. It judges the upload's own extension, which is the stored name's extension for a dot-free stem such as a UUID.
- WeasyPrint rendering and its failure (the 500 responses at lines 296-297 and 329-331): only the response's file name and disposition are modelled.
- SQL and connection handling: each statement becomes its effect on the in-memory tables. SQLite errors other than a missing `fotos_relatorio` table are not modelled, and the `relatorios` table is assumed to exist.
- `init_db` appears only as the empty starting state `EmptyDb`.
- `uuid.uuid4` and the clock: supplied as parameters (`stems`, `now`). Fresh names are an assumption (`FreshNames`) where the invariant needs them.
- Parsing of the `remover_foto` values: the model takes integer ids. SQLite's comparison of the submitted text with the integer column is not modelled.
- `os.makedirs` and failures of the file system itself: the folder is assumed to exist and be writable.
- Concurrency between requests: requests are modelled one at a time.
- Text.Lower: lower-cases ASCII letters only, whereas Python's `str.lower` also maps other Unicode capitals (Python lower-cases `.À` to `.à`; the model keeps `.À`). `salvar` and `editar` have no allow-list, so a non-ASCII extension reaches the stored name; the program only avoids storing one because the imaging library refuses to save under an extension it does not know, which the model covers only through `readable`.
- PdfNames.PdfFileName: takes `str.isalnum` as a parameter rather than Unicode's full classification; concrete names rely only on its ASCII behaviour.
- FileNames.Extension: follows POSIX `splitext` for `/`-separated names; Windows separators are not modelled.

=== FILE: filenames.dfy ===
/** Upload file names: the extension split, the name a stored photo receives,
    and the allow-list the single-photo upload applies before processing. */
module FileNames {
  import opened Wrappers
  import opened Text

  /** The extension part of Python's `os.path.splitext(p)` on a POSIX system:
      from the last `.` to the end, provided that `.` comes after the last
      `/` and the final path component does not consist of dots alone up to
      it (a leading dot marks a hidden file, not an extension); otherwise
      empty. */
  function Extension(p: string): (e: string)
    ensures e == "" || (e[0] == '.' && EndsWith(p, e) && |e| < |p|)
    ensures forall k :: 1 <= k < |e| ==> e[k] != '.' && e[k] != '/'
    ensures e != "" <==> exists k, d :: LastIndex(p, '/') < k < d < |p| && p[d] == '.' && p[k] != '.'
  {
    var sep := LastIndex(p, '/');
    var dot := LastIndex(p, '.');
    if dot > sep && exists k :: sep < k < dot && p[k] != '.' then p[dot..] else ""
  }

  /** The name a new photo is stored under: a fresh opaque stem (a UUID in the
      application) followed by the lower-cased extension of the uploaded
      file's name. The same string fills both the `nome_arquivo` and the
      `caminho_arquivo` column. */
  function StoredName(stem: string, original: string): (name: string)
    ensures |name| == |stem| + |Extension(original)|
    ensures name[..|stem|] == stem
    ensures forall k :: |stem| <= k < |name| ==> !IsUpper(name[k])
    ensures |name| > |stem| ==> name[|stem|] == '.'
    ensures forall k :: |stem| < k < |name| ==> name[k] != '.' && name[k] != '/'
  {
    var e := Lower(Extension(original));
    assert forall k :: 0 < k < |e| ==> e[k] != '.' && e[k] != '/';
    stem + e
  }

  /** A stem with no dots or slashes, like a UUID string. */
  predicate PlainStem(stem: string) {
    |stem| > 0 && forall k :: 0 <= k < |stem| ==> stem[k] != '.' && stem[k] != '/'
  }

  /** Splitting the stored name again recovers exactly the lower-cased
      extension of the original upload. */
  lemma StoredNameKeepsExtension(stem: string, original: string)
    requires PlainStem(stem)
    ensures Extension(StoredName(stem, original)) == Lower(Extension(original))
  {
    var e := Lower(Extension(original));
    var n := StoredName(stem, original);
    forall k | 0 <= k < |e| ensures (e[k] == '.' <==> k == 0) && e[k] != '/' {
      LowerCharKeepsSeparators(Extension(original)[k]);
    }
    LastIndexIs(n, '/', -1);
    if e == [] {
      assert n == stem;
      LastIndexIs(n, '.', -1);
    } else {
      LastIndexIs(n, '.', |stem|);
      assert n[0] != '.';
      assert n[|stem|..] == e;
    }
  }

  /** A stored name never leaves the upload folder: it holds no `/` when the
      stem holds none. */
  lemma StoredNameHasNoSlash(stem: string, original: string)
    requires PlainStem(stem)
    ensures forall k :: 0 <= k < |StoredName(stem, original)| ==> StoredName(stem, original)[k] != '/'
  {
    var e := Lower(Extension(original));
    forall k | 0 <= k < |e| ensures e[k] != '/' {
      LowerCharKeepsSeparators(Extension(original)[k]);
    }
  }

  const AllowedExtensions: seq<string> := [".png", ".jpg", ".jpeg", ".gif", ".webp"]

  /** Why the single-photo upload refuses a request. */
  datatype Rejection = NoFilePart | NoFileSelected | UnsupportedFormat

  /** The checks the single-photo upload makes before touching the image:
      the `foto` part must be present, its file name non-empty, and the
      lower-cased name must end in an allowed extension. `None` means the
      upload goes ahead. */
  function CheckUpload(filename: Option<string>): (r: Option<Rejection>)
    ensures r == Some(NoFilePart) <==> filename.None?
    ensures r == Some(NoFileSelected) <==> filename == Some("")
    ensures r.None? <==> filename.Some? && filename.value != ""
                         && exists x :: x in AllowedExtensions && EndsWith(Lower(filename.value), x)
    ensures r.None? ==> Lower(Extension(filename.value)) in AllowedExtensions + [""]
  {
    match filename
    case None => Some(NoFilePart)
    case Some(name) =>
      if name == "" then Some(NoFileSelected)
      else if exists x :: x in AllowedExtensions && EndsWith(Lower(name), x) then
        AcceptedExtension(name);
        None
      else Some(UnsupportedFormat)
  }

  /** A name whose lower-cased form ends in an allowed extension has that
      extension (lower-cased) or none at all. */
  lemma AcceptedExtension(name: string)
    requires exists x :: x in AllowedExtensions && EndsWith(Lower(name), x)
    ensures Lower(Extension(name)) in AllowedExtensions + [""]
  {
    var x :| x in AllowedExtensions && EndsWith(Lower(name), x);
    AcceptedVia(name, x);
  }

  lemma AcceptedVia(name: string, x: string)
    requires x in AllowedExtensions && EndsWith(Lower(name), x)
    ensures Lower(Extension(name)) in AllowedExtensions + [""]
  {
    AllowedAreExtensions(x);
    SuffixExtension(name, x);
    if Extension(name) == "" {
      assert Lower(Extension(name)) == "";
    }
  }

  /** A dot followed by characters that are neither dots nor slashes. */
  predicate ExtensionShaped(x: string) {
    |x| > 0 && x[0] == '.' && forall k :: 1 <= k < |x| ==> x[k] != '.' && x[k] != '/'
  }

  lemma AllowedAreExtensions(x: string)
    requires x in AllowedExtensions
    ensures ExtensionShaped(x)
  {
    if x == ".png" {
    } else if x == ".jpg" {
    } else if x == ".jpeg" {
    } else if x == ".gif" {
    } else {
      assert x == ".webp";
    }
  }

  /** If the lower-cased `name` ends in `x`, a dot followed by characters that
      are neither dots nor slashes, then the lower-cased extension of `name`
      is `x` or empty. */
  lemma SuffixExtension(name: string, x: string)
    requires EndsWith(Lower(name), x) && ExtensionShaped(x)
    ensures Lower(Extension(name)) == x || Extension(name) == ""
  {
    var m := |name| - |x|;
    SuffixShape(name, x);
    ExtensionFromDot(name, m);
    EitherLowered(Extension(name), name[m..], x);
  }

  lemma EitherLowered(e: string, tail: string, x: string)
    requires e == "" || e == tail
    requires Lower(tail) == x
    ensures Lower(e) == x || e == ""
  {
  }

  /** The tail of `name` that lower-cases to an extension-shaped `x` is itself
      a dot followed by characters that are neither dots nor slashes. */
  lemma SuffixShape(name: string, x: string)
    requires EndsWith(Lower(name), x) && ExtensionShaped(x)
    ensures var m := |name| - |x|;
            && name[m] == '.'
            && (forall k :: m < k < |name| ==> name[k] != '.' && name[k] != '/')
            && Lower(name[m..]) == x
  {
    var m := |name| - |x|;
    LowerCharKeepsSeparators(name[m]);
    assert Lower(name)[m] == x[0];
    forall k | m < k < |name| ensures name[k] != '.' && name[k] != '/' {
      LowerCharKeepsSeparators(name[k]);
      assert Lower(name)[k] == x[k - m];
    }
    assert Lower(name[m..]) == Lower(name)[m..];
  }

  /** When the last dot of `name` is at `m` and no slash follows it, the
      extension is either empty or everything from `m` on. */
  lemma ExtensionFromDot(name: string, m: nat)
    requires m < |name| && name[m] == '.'
    requires forall k :: m < k < |name| ==> name[k] != '.' && name[k] != '/'
    ensures Extension(name) == "" || Extension(name) == name[m..]
  {
    LastIndexIs(name, '.', m);
    assert LastIndex(name, '/') < m;
  }

  /** The check ignores letter case. */
  lemma CheckUploadIgnoresCase(name: string)
    ensures CheckUpload(Some(Lower(name))) == CheckUpload(Some(name))
  {
    LowerIdempotent(name);
  }

  /** A name made of an extension alone passes the check, yet `splitext`
      treats it as a hidden file with no extension, so the stored name is
      the bare stem. */
  lemma DotOnlyNameStoredWithoutExtension(stem: string)
    ensures CheckUpload(Some(".png")) == None
    ensures StoredName(stem, ".png") == stem
  {
    assert Lower(".png") == ".png";
    AllowedSuffixAccepted(".png", ".png");
    DotPngHasNoExtension();
    assert Lower("") == "";
  }

  lemma DotPngHasNoExtension()
    ensures Extension(".png") == ""
  {
    LastIndexIs(".png", '/', -1);
    LastIndexIs(".png", '.', 0);
  }

  /** A name without a dot has no extension. */
  lemma NoDotNoExtension(p: string)
    requires forall k :: 0 <= k < |p| ==> p[k] != '.'
    ensures Extension(p) == ""
  {
    LastIndexIs(p, '.', -1);
  }

  /** A non-empty name whose lower-cased form ends in an allowed extension
      passes the check. */
  lemma AllowedSuffixAccepted(name: string, x: string)
    requires name != "" && x in AllowedExtensions && EndsWith(Lower(name), x)
    ensures CheckUpload(Some(name)) == None
  {
  }

  /** An upper-case extension is accepted and stored lower-cased. */
  lemma UpperCaseExtensionLowered(stem: string)
    ensures CheckUpload(Some("Foto.JPG")) == None
    ensures StoredName(stem, "Foto.JPG") == stem + ".jpg"
  {
    assert CheckUpload(Some("Foto.JPG")) == None by {
      assert Lower("Foto.JPG") == "foto.jpg";
      AllowedSuffixAccepted("Foto.JPG", ".jpg");
    }
    UpperJpgExtension();
    assert Lower(".JPG") == ".jpg";
    StoredNameFrom(stem, "Foto.JPG", ".JPG", ".jpg");
  }

  /** The stored name assembled from an extension already computed. */
  lemma StoredNameFrom(stem: string, original: string, ext: string, lowered: string)
    requires Extension(original) == ext && Lower(ext) == lowered
    ensures StoredName(stem, original) == stem + lowered
  {
  }

  lemma UpperJpgExtension()
    ensures Extension("Foto.JPG") == ".JPG"
  {
    LastIndexIs("Foto.JPG", '/', -1);
    LastIndexIs("Foto.JPG", '.', 4);
    assert "Foto.JPG"[0] != '.';
  }

  /** A name outside the allow-list is refused. */
  lemma OtherExtensionRejected()
    ensures CheckUpload(Some("notes.txt")) == Some(UnsupportedFormat)
  {
    var n := Lower("notes.txt");
    assert n[|n| - 1] == 't';
    forall x | x in AllowedExtensions ensures !EndsWith(n, x) {
      assert x[|x| - 1] != 't';
      EndsWithLast(n, x);
    }
  }
}

=== FILE: handlers.dfy ===
/** The request handlers that change or read the store: saving a new report
    with its photos, editing a report (update, then remove marked photos, then
    add new ones), the single-photo upload, photo deletion, viewing a report
    and naming its PDF.

    Each request runs its steps against the database and the upload folder.
    An exception part-way through (the imaging library refusing an upload, or
    the photo table missing) ends the request without a commit, so every
    database change of that request is rolled back, while files already
    written to or removed from the folder stay written or removed. */
module Handlers {
  import opened Wrappers
  import opened Seqs
  import opened FileNames
  import opened PdfNames
  import opened Tables

  /** One file part of a multipart form. `readable` stands for whether the
      imaging library can open the bytes and encode them in the format the
      stored name's extension asks for; the pixel work itself is not
      modelled. */
  datatype Upload = Upload(filename: string, readable: bool)

  /** Whether the imaging library stores the upload. Its `save` picks the
      encoder from the extension of the stored name and refuses, before
      writing anything, a name without one. For a dot-free stem such as a
      UUID the stored extension is the lower-cased extension of the upload's
      own name (`StoredNameKeepsExtension`), so a name like `foto` or `.png`
      is refused. */
  predicate Storable(u: Upload) {
    u.readable && Extension(u.filename) != ""
  }

  /** What aborts a request part-way. */
  datatype Fault = PhotoTableMissing | ImageFailure

  /** A request in progress: the uncommitted database, the folder as it now
      is, and the fault that stopped the request, if any. */
  datatype Run = Run(db: Db, disk: set<string>, fault: Option<Fault>)

  /** The end of a request: commit when nothing went wrong, otherwise discard
      the database changes and keep the folder as it is. */
  function Commit(s: Store, r: Run): (s': Store) {
    if r.fault.None? then Store(r.db, r.disk) else Store(s.db, r.disk)
  }

  /** Storing one upload under the stored name `name`: open the image and
      save it (a failure, including an upload that is not `Storable`, writes
      nothing), then insert the photo row (which fails when the photo table
      is missing, after the file was written). */
  function Ingest(r: Run, reportId: nat, upload: Upload, name: string, title: Option<string>): (r': Run)
    ensures r.fault.Some? ==> r' == r
    ensures r'.db.reports == r.db.reports && r'.db.photoTable == r.db.photoTable
    ensures r.disk <= r'.disk <= r.disk + {name}
    ensures r.fault.None? ==> (r'.fault.None? <==> Storable(upload) && r.db.photoTable)
    ensures r.fault.None? && !Storable(upload) ==> r'.disk == r.disk
    ensures r.fault.None? && Storable(upload) && !r.db.photoTable ==> r'.disk == r.disk + {name}
    ensures r.fault.None? && Storable(upload) && r.db.photoTable ==>
              r'.db == InsertPhoto(r.db, reportId, name, title) && r'.disk == r.disk + {name}
  {
    if r.fault.Some? then r
    else if !Storable(upload) then r.(fault := Some(ImageFailure))
    else if !r.db.photoTable then Run(r.db, r.disk + {name}, Some(PhotoTableMissing))
    else Run(InsertPhoto(r.db, reportId, name, title), r.disk + {name}, None)
  }

  /** The title given to a photo whose form has no title at its position. */
  const SaveFallbackTitle := "Sem nome"
  const EditFallbackTitle := "Sem t\U{ED}tulo"

  /** Titles are paired with uploads by position. */
  function TitleFor(titles: seq<string>, i: nat, fallback: string): (title: string) {
    if i < |titles| then titles[i] else fallback
  }

  /** The stored names of a batch: each upload's stem followed by its
      lower-cased extension. */
  function StoredNames(uploads: seq<Upload>, stems: seq<string>): (names: seq<string>)
    requires |stems| == |uploads|
    ensures |names| == |uploads|
  {
    if uploads == [] then []
    else [StoredName(stems[0], uploads[0].filename)] + StoredNames(uploads[1..], stems[1..])
  }

  /** The stored name upload `j` receives from its stem. */
  function NameAt(uploads: seq<Upload>, stems: seq<string>, j: nat): (name: string)
    requires |stems| == |uploads| && j < |uploads|
  {
    StoredNames(uploads, stems)[j]
  }

  /** Upload `j` is stored under its own stem and its own extension. */
  lemma {:induction false} NameAtIs(uploads: seq<Upload>, stems: seq<string>, j: nat)
    requires |stems| == |uploads| && j < |uploads|
    ensures NameAt(uploads, stems, j) == StoredName(stems[j], uploads[j].filename)
    decreases j
  {
    if j > 0 {
      NameAtIs(uploads[1..], stems[1..], j - 1);
    }
  }

  /** The positions, from `i` on, of the uploads that carry a file name. */
  function NonEmptyFrom(uploads: seq<Upload>, i: nat): (ix: seq<nat>)
    requires i <= |uploads|
    ensures forall k :: 0 <= k < |ix| ==> i <= ix[k] < |uploads| && uploads[ix[k]].filename != ""
    decreases |uploads| - i
  {
    if i == |uploads| then []
    else if uploads[i].filename != "" then [i] + NonEmptyFrom(uploads, i + 1)
    else NonEmptyFrom(uploads, i + 1)
  }

  /** The planned positions increase, so no upload is planned twice. */
  lemma {:induction false} NonEmptyFromIncreasing(uploads: seq<Upload>, i: nat)
    requires i <= |uploads|
    ensures forall k, l :: 0 <= k < l < |NonEmptyFrom(uploads, i)| ==>
              NonEmptyFrom(uploads, i)[k] < NonEmptyFrom(uploads, i)[l]
    decreases |uploads| - i
  {
    if i < |uploads| {
      NonEmptyFromIncreasing(uploads, i + 1);
      var rest := NonEmptyFrom(uploads, i + 1);
      if uploads[i].filename != "" {
        var ix := [i] + rest;
        assert NonEmptyFrom(uploads, i) == ix;
        forall k, l | 0 <= k < l < |ix| ensures ix[k] < ix[l] {
          assert ix[l] == rest[l - 1];
          if k == 0 {
            assert ix[k] == i;
          } else {
            assert ix[k] == rest[k - 1];
          }
        }
      }
    }
  }

  /** Every upload that carries a file name is planned. */
  lemma {:induction false} NonEmptyFromComplete(uploads: seq<Upload>, i: nat, j: nat)
    requires i <= j < |uploads| && uploads[j].filename != ""
    ensures j in NonEmptyFrom(uploads, i)
    decreases |uploads| - i
  {
    if i < j {
      NonEmptyFromComplete(uploads, i + 1, j);
    }
  }

  /** The photo rows a batch of uploads is meant to produce: one per upload
      position in `ix`, in that order, with consecutive ids from `next`, the
      stored name in both name columns and the title paired by position. */
  function PlannedRows(next: nat, reportId: nat, uploads: seq<Upload>, stems: seq<string>,
                       titles: seq<string>, fallback: string, ix: seq<nat>): (rows: seq<Photo>)
    requires |stems| == |uploads|
    requires forall k :: 0 <= k < |ix| ==> ix[k] < |uploads|
    ensures |rows| == |ix|
    decreases |ix|
  {
    if ix == [] then []
    else [PlannedRow(next, reportId, uploads, stems, titles, fallback, ix[0])]
         + PlannedRows(next + 1, reportId, uploads, stems, titles, fallback, ix[1..])
  }

  /** The planned row at position `k` is the row of upload `ix[k]` with id `next + k`. */
  lemma {:induction false} PlannedRowsAt(next: nat, reportId: nat, uploads: seq<Upload>, stems: seq<string>,
                                         titles: seq<string>, fallback: string, ix: seq<nat>)
    requires |stems| == |uploads|
    requires forall k :: 0 <= k < |ix| ==> ix[k] < |uploads|
    ensures var rows := PlannedRows(next, reportId, uploads, stems, titles, fallback, ix);
            forall k :: 0 <= k < |ix| ==> rows[k] == PlannedRow(next + k, reportId, uploads, stems, titles, fallback, ix[k])
    decreases |ix|
  {
    if ix != [] {
      PlannedRowsAt(next + 1, reportId, uploads, stems, titles, fallback, ix[1..]);
    }
  }

  /** The row upload `j` is meant to produce under photo id `id`. */
  function PlannedRow(id: nat, reportId: nat, uploads: seq<Upload>, stems: seq<string>,
                      titles: seq<string>, fallback: string, j: nat): (row: Photo)
    requires |stems| == |uploads| && j < |uploads|
  {
    var name := NameAt(uploads, stems, j);
    Photo(id, reportId, name, name, Some(TitleFor(titles, j, fallback)))
  }

  /** The stored names of the uploads from position `i` on that carry a file name. */
  ghost function PlannedNames(uploads: seq<Upload>, stems: seq<string>, i: nat): set<string>
    requires |stems| == |uploads|
  {
    set j | i <= j < |uploads| && uploads[j].filename != "" :: NameAt(uploads, stems, j)
  }

  /** The stems produce names unused by any photo row and distinct from each other. */
  ghost predicate FreshNames(db: Db, uploads: seq<Upload>, stems: seq<string>)
    requires |stems| == |uploads|
  {
    && (forall j :: 0 <= j < |uploads| && uploads[j].filename != "" ==>
          NameAt(uploads, stems, j) !in Paths(db.photos))
    && (forall j, l :: 0 <= j < l < |uploads| && uploads[j].filename != "" && uploads[l].filename != "" ==>
          NameAt(uploads, stems, j) != NameAt(uploads, stems, l))
  }

  /** The photo loop of saving and editing, from upload position `i` on: an
      upload without a file name is skipped but still uses up its position;
      the first upload that fails stops the request. */
  function AddUploads(r: Run, reportId: nat, uploads: seq<Upload>, stems: seq<string>,
                      titles: seq<string>, fallback: string, i: nat): (r': Run)
    requires |stems| == |uploads| && i <= |uploads|
    ensures r.fault.Some? ==> r' == r
    ensures r'.db.reports == r.db.reports && r'.db.photoTable == r.db.photoTable
    ensures r.disk <= r'.disk <= r.disk + PlannedNames(uploads, stems, i)
    ensures r.fault.None? ==>
              (r'.fault.Some? <==> exists j :: i <= j < |uploads| && uploads[j].filename != ""
                                             && (!Storable(uploads[j]) || !r.db.photoTable))
    decreases |uploads| - i
  {
    if i == |uploads| then r
    else if uploads[i].filename == "" then AddUploads(r, reportId, uploads, stems, titles, fallback, i + 1)
    else
      var r1 := Ingest(r, reportId, uploads[i], NameAt(uploads, stems, i), Some(TitleFor(titles, i, fallback)));
      assert NameAt(uploads, stems, i) in PlannedNames(uploads, stems, i);
      assert PlannedNames(uploads, stems, i + 1) <= PlannedNames(uploads, stems, i);
      AddUploads(r1, reportId, uploads, stems, titles, fallback, i + 1)
  }

  /** With the photo table present and every named upload readable, the loop
      appends exactly the planned rows, in upload order, and writes exactly
      the planned files. */
  lemma {:induction false} AddUploadsSucceeds(r: Run, reportId: nat, uploads: seq<Upload>, stems: seq<string>,
                                              titles: seq<string>, fallback: string, i: nat)
    requires |stems| == |uploads| && i <= |uploads|
    requires r.fault.None? && r.db.photoTable
    requires forall j :: i <= j < |uploads| && uploads[j].filename != "" ==> Storable(uploads[j])
    ensures AddUploads(r, reportId, uploads, stems, titles, fallback, i)
            == Planned(r, reportId, uploads, stems, titles, fallback, i)
    decreases |uploads| - i
  {
    if i == |uploads| {
      assert PlannedNames(uploads, stems, i) == {};
      assert r.db.photos + [] == r.db.photos;
    } else if uploads[i].filename == "" {
      AddUploadsSucceeds(r, reportId, uploads, stems, titles, fallback, i + 1);
      assert PlannedNames(uploads, stems, i) == PlannedNames(uploads, stems, i + 1);
    } else {
      var title := TitleFor(titles, i, fallback);
      var name := NameAt(uploads, stems, i);
      var r1 := Ingest(r, reportId, uploads[i], name, Some(title));
      assert r1 == Run(InsertPhoto(r.db, reportId, name, Some(title)), r.disk + {name}, None);
      assert AddUploads(r, reportId, uploads, stems, titles, fallback, i)
             == AddUploads(r1, reportId, uploads, stems, titles, fallback, i + 1);
      AddUploadsSucceeds(r1, reportId, uploads, stems, titles, fallback, i + 1);
      PlannedStep(r, reportId, uploads, stems, titles, fallback, i);
    }
  }

  /** The state the photo loop is meant to reach from `r`: the planned rows
      appended, the counter advanced past them, the planned files written. */
  ghost function Planned(r: Run, reportId: nat, uploads: seq<Upload>, stems: seq<string>,
                         titles: seq<string>, fallback: string, i: nat): Run
    requires |stems| == |uploads| && i <= |uploads|
  {
    Run(PlannedDb(r.db, reportId, uploads, stems, titles, fallback, i), r.disk + PlannedNames(uploads, stems, i), None)
  }

  /** The tables the photo loop is meant to reach from `db`. */
  ghost function PlannedDb(db: Db, reportId: nat, uploads: seq<Upload>, stems: seq<string>,
                           titles: seq<string>, fallback: string, i: nat): Db
    requires |stems| == |uploads| && i <= |uploads|
  {
    var ix := NonEmptyFrom(uploads, i);
    db.(photos := db.photos + PlannedRows(db.nextPhotoId, reportId, uploads, stems, titles, fallback, ix),
        nextPhotoId := db.nextPhotoId + |ix|)
  }

  /** One named upload at `i` moves the plan from `i` to `i + 1`. */
  lemma PlannedStep(r: Run, reportId: nat, uploads: seq<Upload>, stems: seq<string>,
                    titles: seq<string>, fallback: string, i: nat)
    requires |stems| == |uploads| && i < |uploads| && uploads[i].filename != ""
    requires r.db.photoTable && r.fault.None?
    ensures var name := NameAt(uploads, stems, i);
            var r1 := Run(InsertPhoto(r.db, reportId, name, Some(TitleFor(titles, i, fallback))), r.disk + {name}, None);
            Planned(r1, reportId, uploads, stems, titles, fallback, i + 1)
            == Planned(r, reportId, uploads, stems, titles, fallback, i)
  {
    InsertedPlannedRow(r.db, reportId, uploads, stems, titles, fallback, i);
    PlannedDbStep(r.db, reportId, uploads, stems, titles, fallback, i);
    PlannedNamesStep(uploads, stems, i);
  }

  lemma PlannedDbStep(db: Db, reportId: nat, uploads: seq<Upload>, stems: seq<string>,
                      titles: seq<string>, fallback: string, i: nat)
    requires |stems| == |uploads| && i < |uploads| && uploads[i].filename != ""
    ensures var row := PlannedRow(db.nextPhotoId, reportId, uploads, stems, titles, fallback, i);
            var db1 := db.(photos := db.photos + [row], nextPhotoId := db.nextPhotoId + 1);
            PlannedDb(db1, reportId, uploads, stems, titles, fallback, i + 1)
            == PlannedDb(db, reportId, uploads, stems, titles, fallback, i)
  {
    PlannedRowsStep(db, reportId, uploads, stems, titles, fallback, i);
    PlannedCounterStep(db, reportId, uploads, stems, titles, fallback, i);
  }

  /** Inserting upload `i` adds exactly its planned row. */
  lemma InsertedPlannedRow(db: Db, reportId: nat, uploads: seq<Upload>, stems: seq<string>,
                           titles: seq<string>, fallback: string, i: nat)
    requires |stems| == |uploads| && i < |uploads|
    ensures var row := PlannedRow(db.nextPhotoId, reportId, uploads, stems, titles, fallback, i);
            InsertPhoto(db, reportId, NameAt(uploads, stems, i), Some(TitleFor(titles, i, fallback)))
            == db.(photos := db.photos + [row], nextPhotoId := db.nextPhotoId + 1)
  {
  }

  lemma PlannedRowsStep(db: Db, reportId: nat, uploads: seq<Upload>, stems: seq<string>,
                        titles: seq<string>, fallback: string, i: nat)
    requires |stems| == |uploads| && i < |uploads| && uploads[i].filename != ""
    ensures var row := PlannedRow(db.nextPhotoId, reportId, uploads, stems, titles, fallback, i);
            var db1 := db.(photos := db.photos + [row], nextPhotoId := db.nextPhotoId + 1);
            PlannedDb(db1, reportId, uploads, stems, titles, fallback, i + 1).photos
            == PlannedDb(db, reportId, uploads, stems, titles, fallback, i).photos
  {
    PlannedPhotosStep(db.photos, db.nextPhotoId, reportId, uploads, stems, titles, fallback, i);
  }

  lemma PlannedCounterStep(db: Db, reportId: nat, uploads: seq<Upload>, stems: seq<string>,
                           titles: seq<string>, fallback: string, i: nat)
    requires |stems| == |uploads| && i < |uploads| && uploads[i].filename != ""
    ensures var row := PlannedRow(db.nextPhotoId, reportId, uploads, stems, titles, fallback, i);
            var db1 := db.(photos := db.photos + [row], nextPhotoId := db.nextPhotoId + 1);
            PlannedDb(db1, reportId, uploads, stems, titles, fallback, i + 1).nextPhotoId
            == PlannedDb(db, reportId, uploads, stems, titles, fallback, i).nextPhotoId
  {
    PlannedPhotosStep(db.photos, db.nextPhotoId, reportId, uploads, stems, titles, fallback, i);
  }

  /** The row of a named upload at `i`, then the rows planned from `i + 1`,
      are the rows planned from `i`. */
  lemma PlannedPhotosStep(photos: seq<Photo>, next: nat, reportId: nat, uploads: seq<Upload>, stems: seq<string>,
                          titles: seq<string>, fallback: string, i: nat)
    requires |stems| == |uploads| && i < |uploads| && uploads[i].filename != ""
    ensures (photos + [PlannedRow(next, reportId, uploads, stems, titles, fallback, i)])
            + PlannedRows(next + 1, reportId, uploads, stems, titles, fallback, NonEmptyFrom(uploads, i + 1))
            == photos + PlannedRows(next, reportId, uploads, stems, titles, fallback, NonEmptyFrom(uploads, i))
    ensures |NonEmptyFrom(uploads, i)| == |NonEmptyFrom(uploads, i + 1)| + 1
  {
    var row := PlannedRow(next, reportId, uploads, stems, titles, fallback, i);
    var ix1 := NonEmptyFrom(uploads, i + 1);
    assert NonEmptyFrom(uploads, i) == [i] + ix1;
    assert ([i] + ix1)[1..] == ix1;
    var rest := PlannedRows(next + 1, reportId, uploads, stems, titles, fallback, ix1);
    assert PlannedRows(next, reportId, uploads, stems, titles, fallback, [i] + ix1) == [row] + rest;
    assert (photos + [row]) + rest == photos + ([row] + rest);
  }

  lemma PlannedNamesStep(uploads: seq<Upload>, stems: seq<string>, i: nat)
    requires |stems| == |uploads| && i < |uploads| && uploads[i].filename != ""
    ensures PlannedNames(uploads, stems, i) == {NameAt(uploads, stems, i)} + PlannedNames(uploads, stems, i + 1)
  {
  }

  /** A planned batch appended to a valid table under fresh names keeps it valid. */
  lemma PlannedRowsValid(db: Db, reportId: nat, uploads: seq<Upload>, stems: seq<string>,
                         titles: seq<string>, fallback: string)
    requires |stems| == |uploads| && Valid(db) && FreshNames(db, uploads, stems)
    ensures var ix := NonEmptyFrom(uploads, 0);
            Valid(db.(photos := db.photos + PlannedRows(db.nextPhotoId, reportId, uploads, stems, titles, fallback, ix),
                      nextPhotoId := db.nextPhotoId + |ix|))
  {
    var ix := NonEmptyFrom(uploads, 0);
    var next := db.nextPhotoId;
    var added := PlannedRows(next, reportId, uploads, stems, titles, fallback, ix);
    PlannedRowsOrdered(db, reportId, uploads, stems, titles, fallback);
    PlannedRowsAfter(db, reportId, uploads, stems, titles, fallback);
    PlannedRowsShape(next, reportId, uploads, stems, titles, fallback);
    PairwiseAppend(PhotoOrder, db.photos, added);
    var ps := db.photos + added;
    forall p | p in ps ensures 1 <= p.id < next + |ix| && p.fileName == p.path {
      if p !in db.photos {
        assert p in added;
      }
    }
  }

  /** The rows of one batch are in id order and name distinct files. */
  lemma PlannedRowsOrdered(db: Db, reportId: nat, uploads: seq<Upload>, stems: seq<string>,
                           titles: seq<string>, fallback: string)
    requires |stems| == |uploads| && FreshNames(db, uploads, stems)
    ensures Pairwise(PhotoOrder, PlannedRows(db.nextPhotoId, reportId, uploads, stems, titles, fallback, NonEmptyFrom(uploads, 0)))
  {
    var ix := NonEmptyFrom(uploads, 0);
    var added := PlannedRows(db.nextPhotoId, reportId, uploads, stems, titles, fallback, ix);
    NonEmptyFromIncreasing(uploads, 0);
    PlannedRowsAt(db.nextPhotoId, reportId, uploads, stems, titles, fallback, ix);
    forall k, l | 0 <= k < l < |added| ensures PhotoOrder(added[k], added[l]) {
      assert ix[k] < ix[l];
    }
  }

  /** Every row of a batch comes after every existing row: a larger id and a
      file no existing row uses. */
  lemma PlannedRowsAfter(db: Db, reportId: nat, uploads: seq<Upload>, stems: seq<string>,
                         titles: seq<string>, fallback: string)
    requires |stems| == |uploads| && Valid(db) && FreshNames(db, uploads, stems)
    ensures forall x, y :: x in db.photos && y in PlannedRows(db.nextPhotoId, reportId, uploads, stems, titles, fallback, NonEmptyFrom(uploads, 0))
              ==> PhotoOrder(x, y)
  {
    var ix := NonEmptyFrom(uploads, 0);
    var added := PlannedRows(db.nextPhotoId, reportId, uploads, stems, titles, fallback, ix);
    PlannedRowsAt(db.nextPhotoId, reportId, uploads, stems, titles, fallback, ix);
    forall x, y | x in db.photos && y in added ensures PhotoOrder(x, y) {
      var l :| 0 <= l < |added| && added[l] == y;
      assert y.path == NameAt(uploads, stems, ix[l]);
      assert x.path in Paths(db.photos);
    }
  }

  /** Every row of a batch takes an id from the batch's range and agrees in
      its two name columns. */
  lemma PlannedRowsShape(next: nat, reportId: nat, uploads: seq<Upload>, stems: seq<string>,
                         titles: seq<string>, fallback: string)
    requires |stems| == |uploads|
    ensures var ix := NonEmptyFrom(uploads, 0);
            forall p :: p in PlannedRows(next, reportId, uploads, stems, titles, fallback, ix) ==>
              next <= p.id < next + |ix| && p.fileName == p.path
  {
    var ix := NonEmptyFrom(uploads, 0);
    var added := PlannedRows(next, reportId, uploads, stems, titles, fallback, ix);
    PlannedRowsAt(next, reportId, uploads, stems, titles, fallback, ix);
    forall p | p in added ensures next <= p.id < next + |ix| && p.fileName == p.path {
      var l :| 0 <= l < |added| && added[l] == p;
    }
  }

  /** A photo survives a removal batch when its id is not in the batch. */
  function NotRemoved(ids: seq<int>): Photo -> bool {
    (p: Photo) => p.id !in ids
  }

  /** The files of the rows a removal batch deletes. */
  ghost function RemovedPaths(photos: seq<Photo>, ids: seq<int>): set<string> {
    set p | p in photos && p.id in ids :: p.path
  }

  /** The removal loop of editing, from position `i` of the id list on: each
      id's file is removed if its row exists, then its row is deleted; an
      unknown id is skipped. Any lookup fails when the photo table is missing. */
  function RemoveAll(r: Run, ids: seq<int>, i: nat): (r': Run)
    requires i <= |ids|
    ensures r.fault.Some? ==> r' == r
    ensures r'.db.reports == r.db.reports && r'.db.photoTable == r.db.photoTable
    ensures r'.db.nextPhotoId == r.db.nextPhotoId
    ensures r.disk - RemovedPaths(r.db.photos, ids[i..]) <= r'.disk <= r.disk
    ensures r.fault.None? ==> (r'.fault.Some? <==> i < |ids| && !r.db.photoTable)
    decreases |ids| - i
  {
    if i == |ids| || r.fault.Some? then r
    else if !r.db.photoTable then r.(fault := Some(PhotoTableMissing))
    else
      var (db', disk') := DropPhoto(r.db, r.disk, ids[i]);
      RemovedPathsShrink(r.db.photos, db'.photos, ids, i);
      RemoveAll(Run(db', disk', None), ids, i + 1)
  }

  /** The files the rest of the removal loop may take away, from the rows
      left after dropping `ids[i]`, are among those the whole loop may. */
  lemma RemovedPathsShrink(ps: seq<Photo>, kept: seq<Photo>, ids: seq<int>, i: nat)
    requires i < |ids| && forall p :: p in kept ==> p in ps
    ensures RemovedPaths(kept, ids[i + 1..]) <= RemovedPaths(ps, ids[i..])
    ensures forall p :: p in ps && p.id == ids[i] ==> p.path in RemovedPaths(ps, ids[i..])
  {
    assert forall x :: x in ids[i + 1..] ==> x in ids[i..];
    assert ids[i] in ids[i..];
  }

  /** With the photo table present, the removal loop deletes exactly the rows
      whose id is listed, keeping the others in order, and exactly their files. */
  lemma {:induction false} RemoveAllEffect(r: Run, ids: seq<int>, i: nat)
    requires i <= |ids| && r.fault.None? && r.db.photoTable && Valid(r.db)
    ensures RemoveAll(r, ids, i)
            == Run(r.db.(photos := Filter(NotRemoved(ids[i..]), r.db.photos)),
                   r.disk - RemovedPaths(r.db.photos, ids[i..]), None)
    ensures Valid(RemoveAll(r, ids, i).db)
    decreases |ids| - i
  {
    var ps := r.db.photos;
    if i == |ids| {
      FilterAll(NotRemoved(ids[i..]), ps);
      assert RemovedPaths(ps, ids[i..]) == {};
    } else {
      var id := ids[i];
      DropPhotoValid(r.db, r.disk, id);
      var (db1, disk1) := DropPhoto(r.db, r.disk, id);
      assert RemoveAll(r, ids, i) == RemoveAll(Run(db1, disk1, None), ids, i + 1);
      RemoveAllEffect(Run(db1, disk1, None), ids, i + 1);
      RemoveStep(ps, ids, i);
    }
  }

  /** Removing the id at `i` and then the later ones removes the rows and files
      that removing all ids from `i` on removes. */
  lemma RemoveStep(ps: seq<Photo>, ids: seq<int>, i: nat)
    requires i < |ids|
    ensures Filter(NotRemoved(ids[i + 1..]), Filter(LacksPhotoId(ids[i]), ps)) == Filter(NotRemoved(ids[i..]), ps)
    ensures RemovedPaths(ps, ids[i..])
            == PathsWithId(ps, ids[i]) + RemovedPaths(Filter(LacksPhotoId(ids[i]), ps), ids[i + 1..])
  {
    assert ids[i..] == [ids[i]] + ids[i + 1..];
    FilterFilter(NotRemoved(ids[i + 1..]), LacksPhotoId(ids[i]), NotRemoved(ids[i..]), ps);
    RemoveStepPaths(ps, ids[i], ids[i + 1..]);
  }

  lemma RemoveStepPaths(ps: seq<Photo>, id: int, later: seq<int>)
    ensures RemovedPaths(ps, [id] + later)
            == PathsWithId(ps, id) + RemovedPaths(Filter(LacksPhotoId(id), ps), later)
  {
    var kept := Filter(LacksPhotoId(id), ps);
    forall x | x in RemovedPaths(ps, [id] + later)
      ensures x in PathsWithId(ps, id) + RemovedPaths(kept, later)
    {
      var p :| p in ps && p.id in [id] + later && p.path == x;
      if p.id != id {
        assert p in kept;
      }
    }
  }

  /** `salvar`: insert the report, then store each named upload with the title
      at its position (`Sem nome` when the titles run out). The result is the
      new report id, or the fault that rolled the request back. */
  function Save(s: Store, fields: Fields, now: nat, uploads: seq<Upload>, titles: seq<string>,
                stems: seq<string>): (r: (Store, Result<nat, Fault>))
    requires |stems| == |uploads|
    ensures r.1.Failure? <==> exists j :: 0 <= j < |uploads| && uploads[j].filename != ""
                                         && (!Storable(uploads[j]) || !s.db.photoTable)
    ensures r.1.Failure? ==> r.0.db == s.db && s.disk <= r.0.disk <= s.disk + PlannedNames(uploads, stems, 0)
    ensures r.1.Success? ==> (r.1.value == s.db.nextReportId
                             && r.0.db.reports == s.db.reports + [Report(r.1.value, fields, now)])
  {
    var id := s.db.nextReportId;
    var run := AddUploads(Run(InsertReport(s.db, fields, now), s.disk, None), id, uploads, stems,
                          titles, SaveFallbackTitle, 0);
    (Commit(s, run), if run.fault.None? then Success(id) else Failure(run.fault.value))
  }

  /** The stored names of the uploads at positions `i` up to `j` that carry a
      file name. */
  ghost function NamesBetween(uploads: seq<Upload>, stems: seq<string>, i: nat, j: nat): set<string>
    requires |stems| == |uploads| && j <= |uploads|
    decreases j - i
  {
    if j <= i then {}
    else (if uploads[i].filename != "" then {NameAt(uploads, stems, i)} else {}) + NamesBetween(uploads, stems, i + 1, j)
  }

  /** Upload `k` either carries no file name or can be stored. */
  predicate StoredIfNamed(uploads: seq<Upload>, k: nat)
    requires k < |uploads|
  {
    uploads[k].filename != "" ==> Storable(uploads[k])
  }

  /** The run stopped on an upload that cannot be stored, with `disk` as
      its upload folder. */
  predicate StoppedWith(r: Run, disk: set<string>)
  {
    r.fault == Some(ImageFailure) && r.disk == disk
  }

  /** With the photo table present, the photo loop stops at the first named
      upload that cannot be stored, after writing the files of the named
      uploads before it. */
  lemma {:induction false} AddUploadsStopsAt(r: Run, reportId: nat, uploads: seq<Upload>, stems: seq<string>,
                                             titles: seq<string>, fallback: string, i: nat, j: nat)
    requires |stems| == |uploads| && i <= j < |uploads|
    requires r.fault.None? && r.db.photoTable
    requires uploads[j].filename != "" && !Storable(uploads[j])
    requires forall k :: i <= k < j ==> StoredIfNamed(uploads, k)
    ensures StoppedWith(AddUploads(r, reportId, uploads, stems, titles, fallback, i),
                        r.disk + NamesBetween(uploads, stems, i, j))
    decreases j - i, 1
  {
    if i == j {
    } else if uploads[i].filename == "" {
      StopsAtAfterUnnamed(r, reportId, uploads, stems, titles, fallback, i, j);
    } else {
      StopsAtAfterNamed(r, reportId, uploads, stems, titles, fallback, i, j);
    }
  }

  /** The step of `AddUploadsStopsAt` past an upload without a file name. */
  lemma {:induction false} StopsAtAfterUnnamed(r: Run, reportId: nat, uploads: seq<Upload>, stems: seq<string>,
                                               titles: seq<string>, fallback: string, i: nat, j: nat)
    requires |stems| == |uploads| && i < j < |uploads|
    requires r.fault.None? && r.db.photoTable
    requires uploads[j].filename != "" && !Storable(uploads[j])
    requires forall k :: i <= k < j ==> StoredIfNamed(uploads, k)
    requires uploads[i].filename == ""
    ensures StoppedWith(AddUploads(r, reportId, uploads, stems, titles, fallback, i),
                        r.disk + NamesBetween(uploads, stems, i, j))
    decreases j - i, 0
  {
    AddUploadsStopsAt(r, reportId, uploads, stems, titles, fallback, i + 1, j);
  }

  /** The step of `AddUploadsStopsAt` past a named upload that is stored. */
  lemma {:induction false} StopsAtAfterNamed(r: Run, reportId: nat, uploads: seq<Upload>, stems: seq<string>,
                                             titles: seq<string>, fallback: string, i: nat, j: nat)
    requires |stems| == |uploads| && i < j < |uploads|
    requires r.fault.None? && r.db.photoTable
    requires uploads[j].filename != "" && !Storable(uploads[j])
    requires forall k :: i <= k < j ==> StoredIfNamed(uploads, k)
    requires uploads[i].filename != ""
    ensures StoppedWith(AddUploads(r, reportId, uploads, stems, titles, fallback, i),
                        r.disk + NamesBetween(uploads, stems, i, j))
    decreases j - i, 0
  {
    assert StoredIfNamed(uploads, i);
    var name := NameAt(uploads, stems, i);
    var r1 := Ingest(r, reportId, uploads[i], name, Some(TitleFor(titles, i, fallback)));
    assert r1.fault.None? && r1.db.photoTable && r1.disk == r.disk + {name};
    AddUploadsStopsAt(r1, reportId, uploads, stems, titles, fallback, i + 1, j);
  }

  /** A save that stops at the first named upload that cannot be stored keeps
      the files of the named uploads before it, while the database goes back
      to its state before the request. */
  lemma SaveFailureKeepsWritten(s: Store, fields: Fields, now: nat, uploads: seq<Upload>, titles: seq<string>,
                                stems: seq<string>, j: nat)
    requires |stems| == |uploads| && j < |uploads| && s.db.photoTable
    requires uploads[j].filename != "" && !Storable(uploads[j])
    requires forall k :: 0 <= k < j && uploads[k].filename != "" ==> Storable(uploads[k])
    ensures Save(s, fields, now, uploads, titles, stems)
            == (Store(s.db, s.disk + NamesBetween(uploads, stems, 0, j)), Failure(ImageFailure))
  {
    AddUploadsStopsAt(Run(InsertReport(s.db, fields, now), s.disk, None), s.db.nextReportId, uploads, stems,
                      titles, SaveFallbackTitle, 0, j);
  }

  /** A successful save appends the planned photo rows for the new report and
      writes their files; under fresh names the database stays valid. */
  lemma SaveCommits(s: Store, fields: Fields, now: nat, uploads: seq<Upload>, titles: seq<string>,
                    stems: seq<string>)
    requires |stems| == |uploads| && s.db.photoTable
    requires forall j :: 0 <= j < |uploads| && uploads[j].filename != "" ==> Storable(uploads[j])
    ensures var (s', out) := Save(s, fields, now, uploads, titles, stems);
            var ix := NonEmptyFrom(uploads, 0);
            && out == Success(s.db.nextReportId)
            && s'.db.photos == s.db.photos + PlannedRows(s.db.nextPhotoId, s.db.nextReportId, uploads, stems,
                                                         titles, SaveFallbackTitle, ix)
            && s'.db.nextPhotoId == s.db.nextPhotoId + |ix|
            && s'.disk == s.disk + PlannedNames(uploads, stems, 0)
            && (Valid(s.db) && FreshNames(s.db, uploads, stems) ==> Valid(s'.db))
  {
    var db1 := InsertReport(s.db, fields, now);
    AddUploadsSucceeds(Run(db1, s.disk, None), s.db.nextReportId, uploads, stems, titles, SaveFallbackTitle, 0);
    if Valid(s.db) && FreshNames(s.db, uploads, stems) {
      InsertReportEffect(s.db, fields, now);
      PlannedRowsValid(db1, s.db.nextReportId, uploads, stems, titles, SaveFallbackTitle);
    }
  }

  /** `editar` (POST): overwrite the report's fields, remove the marked
      photos, then store the new uploads with the title at their position
      (`Sem título` when the titles run out). */
  function Edit(s: Store, reportId: nat, fields: Fields, removeIds: seq<int>, uploads: seq<Upload>,
                titles: seq<string>, stems: seq<string>): (r: (Store, Result<(), Fault>))
    requires |stems| == |uploads|
    ensures r.1.Failure? <==> (!s.db.photoTable && |removeIds| > 0)
                              || exists j :: 0 <= j < |uploads| && uploads[j].filename != ""
                                             && (!Storable(uploads[j]) || !s.db.photoTable)
    ensures r.1.Failure? ==> r.0.db == s.db
    ensures r.1.Failure? ==>
              s.disk - RemovedPaths(s.db.photos, removeIds) <= r.0.disk <= s.disk + PlannedNames(uploads, stems, 0)
    ensures (forall x :: x in s.db.reports ==> x.id != reportId) ==> r.0.db.reports == s.db.reports
  {
    var updated := Run(s.db.(reports := UpdateReport(s.db.reports, reportId, fields)), s.disk, None);
    var removed := RemoveAll(updated, removeIds, 0);
    assert removeIds[0..] == removeIds;
    var run := AddUploads(removed, reportId, uploads, stems, titles, EditFallbackTitle, 0);
    (Commit(s, run), if run.fault.None? then Success(()) else Failure(run.fault.value))
  }

  /** A successful edit leaves the updated report table, the photo rows not
      marked for removal (whichever report they belong to) followed by the new
      rows, and the folder without the removed rows' files but with the new
      ones; under fresh names the database stays valid. Because removal runs
      before the uploads, no photo added by the edit is removed by it. */
  lemma EditCommits(s: Store, reportId: nat, fields: Fields, removeIds: seq<int>, uploads: seq<Upload>,
                    titles: seq<string>, stems: seq<string>)
    requires |stems| == |uploads| && s.db.photoTable && Valid(s.db)
    requires forall j :: 0 <= j < |uploads| && uploads[j].filename != "" ==> Storable(uploads[j])
    ensures var (s', out) := Edit(s, reportId, fields, removeIds, uploads, titles, stems);
            var ix := NonEmptyFrom(uploads, 0);
            && out == Success(())
            && s'.db.reports == UpdateReport(s.db.reports, reportId, fields)
            && s'.db.photos == Filter(NotRemoved(removeIds), s.db.photos)
                               + PlannedRows(s.db.nextPhotoId, reportId, uploads, stems, titles, EditFallbackTitle, ix)
            && s'.disk == (s.disk - RemovedPaths(s.db.photos, removeIds)) + PlannedNames(uploads, stems, 0)
            && (FreshNames(s.db, uploads, stems) ==> Valid(s'.db))
  {
    var db1 := s.db.(reports := UpdateReport(s.db.reports, reportId, fields));
    UpdateReportValid(s.db, reportId, fields);
    var updated := Run(db1, s.disk, None);
    RemoveAllEffect(updated, removeIds, 0);
    assert removeIds[0..] == removeIds;
    var removed := RemoveAll(updated, removeIds, 0);
    AddUploadsSucceeds(removed, reportId, uploads, stems, titles, EditFallbackTitle, 0);
    if FreshNames(s.db, uploads, stems) {
      assert Paths(removed.db.photos) <= Paths(s.db.photos);
      PlannedRowsValid(removed.db, reportId, uploads, stems, titles, EditFallbackTitle);
    }
  }

  /** When an edit fails after its removals (an unreadable upload), the rows
      of the removed photos come back with the rollback but their files are
      gone: they are orphans, and the safe listing no longer shows them. */
  lemma EditFailureOrphansRemoved(s: Store, reportId: nat, fields: Fields, removeIds: seq<int>,
                                  uploads: seq<Upload>, titles: seq<string>, stems: seq<string>, p: Photo)
    requires |stems| == |uploads| && s.db.photoTable && Valid(s.db)
    requires p in s.db.photos && p.id in removeIds
    requires forall j :: 0 <= j < |uploads| && uploads[j].filename != "" ==> NameAt(uploads, stems, j) != p.path
    requires exists j :: 0 <= j < |uploads| && uploads[j].filename != "" && !Storable(uploads[j])
    ensures var (s', out) := Edit(s, reportId, fields, removeIds, uploads, titles, stems);
            && out.Failure?
            && p in s'.db.photos && p.path !in s'.disk
            && p !in SafeListing(s'.db, s'.disk, p.reportId)
  {
    var db1 := s.db.(reports := UpdateReport(s.db.reports, reportId, fields));
    UpdateReportValid(s.db, reportId, fields);
    var updated := Run(db1, s.disk, None);
    RemoveAllEffect(updated, removeIds, 0);
    assert removeIds[0..] == removeIds;
    var removed := RemoveAll(updated, removeIds, 0);
    assert p.path in RemovedPaths(s.db.photos, removeIds);
    assert p.path !in PlannedNames(uploads, stems, 0);
  }

  /** Why the single-photo upload fails. */
  datatype UploadError = Rejected(reason: Rejection) | Crashed(fault: Fault)

  /** `upload_foto`: check the part, then store the photo for `reportId`
      without a title. Success reports the stored name. The report id is not
      checked against the report table. */
  function UploadPhoto(s: Store, reportId: nat, part: Option<Upload>, stem: string): (r: (Store, Result<string, UploadError>))
    ensures r.1.Failure? && r.1.error.Rejected? ==> r.0 == s
    ensures part.None? ==> r.1 == Failure(Rejected(NoFilePart))
    ensures part.Some? && part.value.filename == "" ==> r.1 == Failure(Rejected(NoFileSelected))
    ensures r.1.Success? <==> part.Some? && CheckUpload(Some(part.value.filename)).None?
                              && Storable(part.value) && s.db.photoTable
    ensures r.1.Success? ==>
              var name := StoredName(stem, part.value.filename);
              && r.1.value == name
              && r.0.db == s.db.(photos := s.db.photos + [Photo(s.db.nextPhotoId, reportId, name, name, None)],
                                 nextPhotoId := s.db.nextPhotoId + 1)
              && r.0.disk == s.disk + {name}
    ensures r.1 == Failure(Crashed(PhotoTableMissing)) ==>
              r.0 == Store(s.db, s.disk + {StoredName(stem, part.value.filename)})
    ensures r.1 == Failure(Crashed(ImageFailure)) ==> r.0 == s
    ensures part.Some? && CheckUpload(Some(part.value.filename)).None? && Storable(part.value) && !s.db.photoTable ==>
              r == (Store(s.db, s.disk + {StoredName(stem, part.value.filename)}), Failure(Crashed(PhotoTableMissing)))
    ensures var c := CheckUpload(if part.Some? then Some(part.value.filename) else None);
            c.Some? ==> r == (s, Failure(Rejected(c.value)))
    ensures part.Some? && CheckUpload(Some(part.value.filename)).None? && !Storable(part.value) ==>
              r == (s, Failure(Crashed(ImageFailure)))
  {
    var check := CheckUpload(if part.Some? then Some(part.value.filename) else None);
    if check.Some? then (s, Failure(Rejected(check.value)))
    else
      var name := StoredName(stem, part.value.filename);
      var run := Ingest(Run(s.db, s.disk, None), reportId, part.value, name, None);
      (Commit(s, run), if run.fault.None? then Success(name) else Failure(Crashed(run.fault.value)))
  }

  /** Why deleting a photo fails. */
  datatype DeleteError = PhotoNotFound | DeleteCrashed(fault: Fault)

  /** `deletar_foto`: delete the row and, if present, its file. */
  function DeletePhoto(s: Store, photoId: nat): (r: (Store, Result<(), DeleteError>))
    ensures r.1.Failure? ==> r.0 == s
    ensures r.1 == Failure(DeleteCrashed(PhotoTableMissing)) <==> !s.db.photoTable
    ensures r.1 == Failure(PhotoNotFound) <==> s.db.photoTable && forall p :: p in s.db.photos ==> p.id != photoId
    ensures r.1.Success? ==> exists p :: p in s.db.photos && p.id == photoId && p.path !in r.0.disk
                                         && forall q :: q in r.0.db.photos ==> q.id != photoId
  {
    if !s.db.photoTable then (s, Failure(DeleteCrashed(PhotoTableMissing)))
    else match FindPhoto(s.db.photos, photoId)
      case None => (s, Failure(PhotoNotFound))
      case Some(p) =>
        var (db', disk') := DropPhoto(s.db, s.disk, photoId);
        (Store(db', disk'), Success(()))
  }

  /** Deleting a photo the lookup finds succeeds with the tables and folder
      that dropping it gives. */
  lemma DeleteFound(s: Store, photoId: nat, p: Photo, db': Db, disk': set<string>)
    requires s.db.photoTable && FindPhoto(s.db.photos, photoId) == Some(p)
    requires DropPhoto(s.db, s.disk, photoId) == (db', disk')
    ensures DeletePhoto(s, photoId) == (Store(db', disk'), Success(()))
  {
  }

  /** Deleting the photo at index `k` removes exactly that row and its file;
      every other row is still listed exactly when it was listed before. */
  lemma DeletePhotoEffect(s: Store, k: nat)
    requires Valid(s.db) && s.db.photoTable && k < |s.db.photos|
    ensures var (s', out) := DeletePhoto(s, s.db.photos[k].id);
            && out == Success(())
            && s'.db == s.db.(photos := s.db.photos[..k] + s.db.photos[k+1..])
            && s'.disk == s.disk - {s.db.photos[k].path}
            && Valid(s'.db)
            && forall q, rid :: q in s'.db.photos ==>
                 (q in SafeListing(s'.db, s'.disk, rid) <==> q in SafeListing(s.db, s.disk, rid))
  {
    var ps := s.db.photos;
    assert FindPhoto(ps, ps[k].id).Some? by {
      assert ps[k] in ps;
    }
    DropPhotoEffect(s.db, s.disk, k);
    OthersKeepTheirFiles(ps, k);
  }

  /** No row other than the one at `k` shares its file. */
  lemma OthersKeepTheirFiles(ps: seq<Photo>, k: nat)
    requires Pairwise(PhotoOrder, ps) && k < |ps|
    ensures forall q :: q in ps[..k] + ps[k+1..] ==> q.path != ps[k].path
  {
    var rest := ps[..k] + ps[k+1..];
    forall q | q in rest ensures q.path != ps[k].path {
      var j :| 0 <= j < |rest| && rest[j] == q;
      if j < k { DistinctPhotos(ps, j, k); } else { DistinctPhotos(ps, j + 1, k); }
    }
  }

  /** `ver`: the report and its safely listed photos, or nothing when the
      report does not exist. */
  function View(s: Store, reportId: nat): (r: Option<(Report, seq<Photo>)>)
    ensures r.None? <==> forall x :: x in s.db.reports ==> x.id != reportId
    ensures r.Some? ==> r.value.0 in s.db.reports && r.value.0.id == reportId
    ensures r.Some? ==> forall p :: p in r.value.1 <==>
              s.db.photoTable && p in s.db.photos && p.reportId == reportId && p.fileName in s.disk
  {
    match FindReport(s.db.reports, reportId)
    case None => None
    case Some(report) => Some((report, SafeListing(s.db, s.disk, reportId)))
  }

  /** How the PDF is delivered. */
  datatype Disposition = Attachment | Inline

  /** The headers of a PDF response that matter here. */
  datatype PdfResponse = PdfResponse(disposition: Disposition, fileName: string)

  /** `gerar_pdf` and `visualizar_pdf`: nothing for an unknown report,
      otherwise the requested disposition with the file name derived from
      the report's order number. The rendered bytes are not modelled. */
  function ExportPdf(s: Store, reportId: nat, disposition: Disposition, isAlnum: char -> bool): (r: Option<PdfResponse>)
    ensures r.None? <==> forall x :: x in s.db.reports ==> x.id != reportId
    ensures r.Some? ==> r.value.disposition == disposition
                        && exists x :: x in s.db.reports && x.id == reportId
                                       && r.value.fileName == PdfFileName(x.fields.numOs, reportId, isAlnum)
  {
    match FindReport(s.db.reports, reportId)
    case None => None
    case Some(report) => Some(PdfResponse(disposition, PdfFileName(report.fields.numOs, reportId, isAlnum)))
  }
}

=== FILE: pdfnames.dfy ===
/** The file name under which a report's PDF is offered, for download and for
    inline viewing alike. Python's Unicode `str.isalnum` is a parameter
    `isAlnum`; the concrete facts below only assume that it agrees with the
    ASCII letters and digits on ASCII characters. */
module PdfNames {
  import opened Wrappers
  import opened Text

  /** Each alphanumeric character kept, every other one replaced by `_`. */
  function Sanitize(s: string, isAlnum: char -> bool): (r: string)
    ensures |r| == |s|
    ensures forall i :: 0 <= i < |s| ==> r[i] == (if isAlnum(s[i]) then s[i] else '_')
  {
    if s == [] then []
    else [if isAlnum(s[0]) then s[0] else '_'] + Sanitize(s[1..], isAlnum)
  }

  /** Only alphanumeric characters and `_` survive sanitising. */
  lemma SanitizeSafeChars(s: string, isAlnum: char -> bool)
    ensures forall i :: 0 <= i < |s| ==> isAlnum(Sanitize(s, isAlnum)[i]) || Sanitize(s, isAlnum)[i] == '_'
  {
  }

  /** A string already made of alphanumerics and `_` is left as it is. */
  lemma SanitizeFixesSafe(s: string, isAlnum: char -> bool)
    requires forall i :: 0 <= i < |s| ==> isAlnum(s[i]) || s[i] == '_'
    ensures Sanitize(s, isAlnum) == s
  {
  }

  /** Sanitising twice is sanitising once. */
  lemma SanitizeIdempotent(s: string, isAlnum: char -> bool)
    ensures Sanitize(Sanitize(s, isAlnum), isAlnum) == Sanitize(s, isAlnum)
  {
    SanitizeSafeChars(s, isAlnum);
    SanitizeFixesSafe(Sanitize(s, isAlnum), isAlnum);
  }

  /** The order number when it is present and non-empty, otherwise `OS_`
      followed by the report id. */
  function BaseName(numOs: Option<string>, id: nat): (base: string)
    ensures base != ""
    ensures numOs.Some? && numOs.value != "" ==> base == numOs.value
    ensures numOs.None? || numOs.value == "" ==>
              && |base| > 3 && base[..3] == "OS_" && IsDigits(base[3..]) && DecimalValue(base[3..]) == id
              && (base[3] == '0' <==> id == 0)
  {
    if numOs.Some? && numOs.value != "" then numOs.value
    else
      DecimalRoundTrip(id);
      assert ("OS_" + Decimal(id))[3..] == Decimal(id);
      "OS_" + Decimal(id)
  }

  /** `relatorio_<sanitised base name>.pdf`. */
  function PdfFileName(numOs: Option<string>, id: nat, isAlnum: char -> bool): (name: string)
    ensures |name| == |BaseName(numOs, id)| + 14
    ensures name[..10] == "relatorio_" && name[|name| - 4..] == ".pdf"
    ensures forall i :: 10 <= i < |name| - 4 ==> isAlnum(name[i]) || name[i] == '_'
    ensures forall i :: 0 <= i < |BaseName(numOs, id)| ==>
              name[10 + i] == (if isAlnum(BaseName(numOs, id)[i]) then BaseName(numOs, id)[i] else '_')
  {
    var middle := Sanitize(BaseName(numOs, id), isAlnum);
    var name := "relatorio_" + middle + ".pdf";
    assert forall i :: 10 <= i < |name| - 4 ==> name[i] == middle[i - 10];
    name
  }

  predicate IsAsciiAlnum(c: char) {
    'a' <= c <= 'z' || 'A' <= c <= 'Z' || '0' <= c <= '9'
  }

  /** `isAlnum` classifies the ASCII range as Python's `str.isalnum` does. */
  ghost predicate AgreesOnAscii(isAlnum: char -> bool) {
    forall c: char :: c as int < 128 ==> (isAlnum(c) <==> IsAsciiAlnum(c))
  }

  lemma AsciiClassified(isAlnum: char -> bool, c: char)
    requires AgreesOnAscii(isAlnum) && c as int < 128
    ensures isAlnum(c) <==> IsAsciiAlnum(c)
  {
  }

  /** The fallback base name `OS_<id>` is already safe. */
  lemma FallbackBaseIsSafe(id: nat, isAlnum: char -> bool)
    requires AgreesOnAscii(isAlnum)
    ensures Sanitize("OS_" + Decimal(id), isAlnum) == "OS_" + Decimal(id)
  {
    var digits := Decimal(id);
    var base := "OS_" + digits;
    forall i | 0 <= i < |base| ensures isAlnum(base[i]) || base[i] == '_' {
      if i >= 3 {
        assert base[i] == digits[i - 3];
        AsciiClassified(isAlnum, base[i]);
      } else if i < 2 {
        AsciiClassified(isAlnum, base[i]);
      }
    }
    SanitizeFixesSafe(base, isAlnum);
  }

  /** With no order number the file is `relatorio_OS_<id>.pdf`. */
  lemma FallbackFileName(numOs: Option<string>, id: nat, isAlnum: char -> bool)
    requires numOs == None || numOs == Some("")
    requires AgreesOnAscii(isAlnum)
    ensures PdfFileName(numOs, id, isAlnum) == "relatorio_OS_" + Decimal(id) + ".pdf"
  {
    assert BaseName(numOs, id) == "OS_" + Decimal(id);
    FallbackBaseIsSafe(id, isAlnum);
    assert "relatorio_" + ("OS_" + Decimal(id)) + ".pdf" == "relatorio_OS_" + Decimal(id) + ".pdf";
  }

  /** Two reports without order numbers never share a PDF file name. */
  lemma FallbackFileNamesDistinct(id1: nat, id2: nat, isAlnum: char -> bool)
    requires id1 != id2 && AgreesOnAscii(isAlnum)
    ensures PdfFileName(None, id1, isAlnum) != PdfFileName(None, id2, isAlnum)
  {
    FallbackFileName(None, id1, isAlnum);
    FallbackFileName(None, id2, isAlnum);
    DecimalInjective(id1, id2);
    WrappedDiffer("relatorio_OS_", Decimal(id1), Decimal(id2), ".pdf");
  }

  /** Different middles between the same prefix and suffix give different strings. */
  lemma WrappedDiffer(prefix: string, a: string, b: string, suffix: string)
    requires a != b
    ensures prefix + a + suffix != prefix + b + suffix
  {
    var x, y := prefix + a + suffix, prefix + b + suffix;
    if |a| == |b| {
      assert x[|prefix|..|prefix| + |a|] == a;
      assert y[|prefix|..|prefix| + |b|] == b;
    }
  }

  /** Spaces and slashes in an order number become underscores. */
  lemma OrderNumberWithPunctuation(id: nat, isAlnum: char -> bool)
    requires AgreesOnAscii(isAlnum)
    ensures PdfFileName(Some("OS 2024/01"), id, isAlnum) == "relatorio_OS_2024_01.pdf"
  {
    PunctuationSanitized(id, isAlnum);
    PdfFileNameParts(Some("OS 2024/01"), id, isAlnum, "OS_2024_01");
    PunctuatedNameJoined();
  }

  lemma PunctuatedNameJoined()
    ensures "relatorio_" + "OS_2024_01" + ".pdf" == "relatorio_OS_2024_01.pdf"
  {
  }

  /** The file name assembled from an already sanitised base name. */
  lemma PdfFileNameParts(numOs: Option<string>, id: nat, isAlnum: char -> bool, middle: string)
    requires Sanitize(BaseName(numOs, id), isAlnum) == middle
    ensures PdfFileName(numOs, id, isAlnum) == "relatorio_" + middle + ".pdf"
  {
  }

  lemma PunctuationSanitized(id: nat, isAlnum: char -> bool)
    requires AgreesOnAscii(isAlnum)
    ensures Sanitize(BaseName(Some("OS 2024/01"), id), isAlnum) == "OS_2024_01"
  {
    assert BaseName(Some("OS 2024/01"), id) == "OS 2024/01";
    SpacedOrderNumberSanitized(isAlnum);
  }

  lemma SpacedOrderNumberSanitized(isAlnum: char -> bool)
    requires AgreesOnAscii(isAlnum)
    ensures Sanitize("OS 2024/01", isAlnum) == "OS_2024_01"
  {
    OrderNumberHead("OS 2024/01", isAlnum);
    OrderNumberTail("OS 2024/01", isAlnum);
    SpelledOrderNumber(Sanitize("OS 2024/01", isAlnum));
  }

  lemma OrderNumberHead(s: string, isAlnum: char -> bool)
    requires AgreesOnAscii(isAlnum) && s == "OS 2024/01"
    ensures var r := Sanitize(s, isAlnum);
            r[0] == 'O' && r[1] == 'S' && r[2] == '_' && r[3] == '2' && r[4] == '0'
  {
    AsciiClassified(isAlnum, 'O');
    AsciiClassified(isAlnum, 'S');
    AsciiClassified(isAlnum, ' ');
    AsciiClassified(isAlnum, '2');
    AsciiClassified(isAlnum, '0');
  }

  lemma OrderNumberTail(s: string, isAlnum: char -> bool)
    requires AgreesOnAscii(isAlnum) && s == "OS 2024/01"
    ensures var r := Sanitize(s, isAlnum);
            r[5] == '2' && r[6] == '4' && r[7] == '_' && r[8] == '0' && r[9] == '1'
  {
    AsciiClassified(isAlnum, '2');
    AsciiClassified(isAlnum, '4');
    AsciiClassified(isAlnum, '/');
    AsciiClassified(isAlnum, '0');
    AsciiClassified(isAlnum, '1');
  }

  lemma SpelledOrderNumber(r: string)
    requires |r| == 10
    requires r[0] == 'O' && r[1] == 'S' && r[2] == '_' && r[3] == '2' && r[4] == '0'
    requires r[5] == '2' && r[6] == '4' && r[7] == '_' && r[8] == '0' && r[9] == '1'
    ensures r == "OS_2024_01"
  {
  }

  /** Sanitising works character by character. */
  lemma {:induction false} SanitizeAppend(a: string, b: string, isAlnum: char -> bool)
    ensures Sanitize(a + b, isAlnum) == Sanitize(a, isAlnum) + Sanitize(b, isAlnum)
  {
    if a != [] {
      assert (a + b)[1..] == a[1..] + b;
      SanitizeAppend(a[1..], b, isAlnum);
    } else {
      assert a + b == b;
    }
  }

  /** ASCII letters and digits are kept. */
  lemma AsciiKept(s: string, isAlnum: char -> bool)
    requires AgreesOnAscii(isAlnum)
    requires forall i :: 0 <= i < |s| ==> IsAsciiAlnum(s[i])
    ensures Sanitize(s, isAlnum) == s
  {
    forall i | 0 <= i < |s| ensures isAlnum(s[i]) {
      AsciiClassified(isAlnum, s[i]);
    }
    SanitizeFixesSafe(s, isAlnum);
  }
}

=== FILE: scenarios.dfy ===
/** Requests in sequence: what a user sees after uploading, deleting, saving
    and editing, stated for every store that satisfies the invariant, and a
    few concrete walk-throughs of the form. */
module Scenarios {
  import opened Wrappers
  import opened Seqs
  import opened FileNames
  import opened PdfNames
  import opened Tables
  import opened Handlers

  /** Growing the folder by a name no row points at lists nothing new. */
  lemma ListingIgnoresUnusedFile(db: Db, disk: set<string>, reportId: int, name: string)
    requires Valid(db) && name !in Paths(db.photos)
    ensures SafeListing(db, disk + {name}, reportId) == SafeListing(db, disk, reportId)
  {
    forall p | p in db.photos ensures Listed(reportId, disk + {name})(p) == Listed(reportId, disk)(p) {
      assert p.path in Paths(db.photos);
    }
    FilterCongruent(Listed(reportId, disk + {name}), Listed(reportId, disk), db.photos);
  }

  /** After a successful single-photo upload under a fresh name, the report's
      listing is the old listing followed by the new, untitled row. */
  lemma UploadThenList(s: Store, reportId: nat, up: Upload, stem: string)
    requires Valid(s.db) && s.db.photoTable && Storable(up)
    requires CheckUpload(Some(up.filename)).None?
    requires StoredName(stem, up.filename) !in Paths(s.db.photos)
    ensures var (s', out) := UploadPhoto(s, reportId, Some(up), stem);
            var name := StoredName(stem, up.filename);
            && out == Success(name)
            && SafeListing(s'.db, s'.disk, reportId)
               == SafeListing(s.db, s.disk, reportId) + [Photo(s.db.nextPhotoId, reportId, name, name, None)]
            && Valid(s'.db)
  {
    var name := StoredName(stem, up.filename);
    var row := Photo(s.db.nextPhotoId, reportId, name, name, None);
    var s' := UploadPhoto(s, reportId, Some(up), stem).0;
    InsertPhotoValid(s.db, reportId, name, None);
    SafeListingAppend(s'.db, s'.disk, reportId, s.db.photos, [row]);
    ListingIgnoresUnusedFile(s.db, s.disk, reportId, name);
    assert SafeListing(s'.db.(photos := [row]), s'.disk, reportId) == [row];
  }

  /** Deleting the photo just uploaded gives back the store as it was, except
      that the photo id counter has moved on. */
  lemma DeleteUndoesUpload(s: Store, reportId: nat, up: Upload, stem: string)
    requires Valid(s.db) && s.db.photoTable && Storable(up)
    requires CheckUpload(Some(up.filename)).None?
    requires StoredName(stem, up.filename) !in s.disk
    ensures var s1 := UploadPhoto(s, reportId, Some(up), stem).0;
            var (s2, out) := DeletePhoto(s1, s.db.nextPhotoId);
            && out == Success(())
            && s2 == Store(s.db.(nextPhotoId := s.db.nextPhotoId + 1), s.disk)
  {
    var name := StoredName(stem, up.filename);
    var s1 := Store(InsertPhoto(s.db, reportId, name, None), s.disk + {name});
    assert UploadPhoto(s, reportId, Some(up), stem).0 == s1;
    DeleteLastInserted(s, reportId, name);
  }

  /** Deleting the row just inserted restores the table and the folder,
      except that its id stays used. */
  lemma DeleteLastInserted(s: Store, reportId: nat, name: string)
    requires s.db.photoTable && name !in s.disk
    requires forall p :: p in s.db.photos ==> p.id != s.db.nextPhotoId
    ensures DeletePhoto(Store(InsertPhoto(s.db, reportId, name, None), s.disk + {name}), s.db.nextPhotoId)
            == (Store(s.db.(nextPhotoId := s.db.nextPhotoId + 1), s.disk), Success(()))
  {
    var id := s.db.nextPhotoId;
    var s1 := Store(InsertPhoto(s.db, reportId, name, None), s.disk + {name});
    DropLastInserted(s.db, s.disk, reportId, name);
    DeleteFound(s1, id, Photo(id, reportId, name, name, None), s.db.(nextPhotoId := id + 1), s.disk);
  }

  /** A file named `.png` passes the upload's extension check, but its stored
      name has no extension, so the imaging library refuses to save it: the
      request fails and nothing changes. */
  lemma DotOnlyUploadFails(s: Store, reportId: nat, stem: string)
    ensures UploadPhoto(s, reportId, Some(Upload(".png", true)), stem) == (s, Failure(Crashed(ImageFailure)))
  {
    DotOnlyNameStoredWithoutExtension(stem);
    DotPngHasNoExtension();
  }

  /** Saving a form whose one upload is named without an extension fails,
      and the new report is rolled back with it. */
  lemma ExtensionlessUploadAbortsSave(s: Store, fields: Fields, now: nat)
    ensures var (s', out) := Save(s, fields, now, [Upload("foto", true)], [], ["u"]);
            out == Failure(ImageFailure) && s' == s
  {
    NoDotNoExtension("foto");
    assert !Storable(Upload("foto", true));
  }

  /** Rows planned for a report under names that are now on disk are all
      listed for that report. */
  lemma PlannedRowsListed(uploads: seq<Upload>, stems: seq<string>, titles: seq<string>, fallback: string,
                          next: nat, reportId: nat, disk: set<string>)
    requires |stems| == |uploads| && PlannedNames(uploads, stems, 0) <= disk
    ensures var rows := PlannedRows(next, reportId, uploads, stems, titles, fallback, NonEmptyFrom(uploads, 0));
            Filter(Listed(reportId, disk), rows) == rows
  {
    var ix := NonEmptyFrom(uploads, 0);
    var rows := PlannedRows(next, reportId, uploads, stems, titles, fallback, ix);
    PlannedRowsAt(next, reportId, uploads, stems, titles, fallback, ix);
    forall x | x in rows ensures Listed(reportId, disk)(x) {
      var k :| 0 <= k < |rows| && rows[k] == x;
      assert NameAt(uploads, stems, ix[k]) in PlannedNames(uploads, stems, 0);
    }
    FilterAll(Listed(reportId, disk), rows);
  }

  /** Viewing a freshly saved report shows its fields and exactly the photos
      of the form, in upload order, provided no earlier photo row already
      carries the new report's id. */
  lemma SaveThenView(s: Store, fields: Fields, now: nat, uploads: seq<Upload>, titles: seq<string>,
                     stems: seq<string>)
    requires |stems| == |uploads| && Valid(s.db) && s.db.photoTable && FreshNames(s.db, uploads, stems)
    requires forall j :: 0 <= j < |uploads| && uploads[j].filename != "" ==> Storable(uploads[j])
    requires forall p :: p in s.db.photos ==> p.reportId != s.db.nextReportId
    ensures var (s', out) := Save(s, fields, now, uploads, titles, stems);
            var id := s.db.nextReportId;
            && out == Success(id)
            && View(s', id)
               == Some((Report(id, fields, now),
                        PlannedRows(s.db.nextPhotoId, id, uploads, stems, titles, SaveFallbackTitle, NonEmptyFrom(uploads, 0))))
  {
    var id := s.db.nextReportId;
    var s' := Save(s, fields, now, uploads, titles, stems).0;
    var rows := PlannedRows(s.db.nextPhotoId, id, uploads, stems, titles, SaveFallbackTitle, NonEmptyFrom(uploads, 0));
    SaveCommits(s, fields, now, uploads, titles, stems);
    InsertReportEffect(s.db, fields, now);
    assert s'.db.reports == InsertReport(s.db, fields, now).reports;
    SafeListingAppend(s'.db, s'.disk, id, s.db.photos, rows);
    FilterNone(Listed(id, s'.disk), s.db.photos);
    PlannedRowsListed(uploads, stems, titles, SaveFallbackTitle, s.db.nextPhotoId, id, s'.disk);
    assert FindReport(s'.db.reports, id) == Some(Report(id, fields, now));
    assert [] + rows == rows;
    ViewFound(s', id, Report(id, fields, now));
  }

  /** A report that the lookup finds is shown with its safe listing. */
  lemma ViewFound(s: Store, reportId: nat, report: Report)
    requires FindReport(s.db.reports, reportId) == Some(report)
    ensures View(s, reportId) == Some((report, SafeListing(s.db, s.disk, reportId)))
  {
  }

  /** A photo uploaded to a report id that does not exist yet is stored
      anyway, and shows up in the report that is later saved under that id. */
  lemma PhotoUploadedAheadAppearsInNewReport(s: Store, up: Upload, stem: string, fields: Fields, now: nat)
    requires Valid(s.db) && s.db.photoTable && Storable(up)
    requires CheckUpload(Some(up.filename)).None?
    requires StoredName(stem, up.filename) !in Paths(s.db.photos)
    requires forall p :: p in s.db.photos ==> p.reportId != s.db.nextReportId
    ensures var id := s.db.nextReportId;
            var name := StoredName(stem, up.filename);
            var (s1, out1) := UploadPhoto(s, id, Some(up), stem);
            var (s2, out2) := Save(s1, fields, now, [], [], []);
            && View(s, id) == None
            && out1 == Success(name)
            && out2 == Success(id)
            && View(s2, id) == Some((Report(id, fields, now), [Photo(s.db.nextPhotoId, id, name, name, None)]))
  {
    var id := s.db.nextReportId;
    var s1 := UploadPhoto(s, id, Some(up), stem).0;
    UploadThenList(s, id, up, stem);
    FilterNone(Listed(id, s.disk), s.db.photos);
    var s2 := Save(s1, fields, now, [], [], []).0;
    InsertReportEffect(s1.db, fields, now);
    assert s2 == Store(InsertReport(s1.db, fields, now), s1.disk);
    var name := StoredName(stem, up.filename);
    var row := Photo(s.db.nextPhotoId, id, name, name, None);
    assert SafeListing(s2.db, s2.disk, id) == SafeListing(s1.db, s1.disk, id) == [] + [row];
    ViewFound(s2, id, Report(id, fields, now));
    assert [] + [row] == [row];
  }

  /** Editing a report whose one listed photo is marked for removal while one
      new titled photo is sent leaves exactly the new photo listed. */
  lemma EditReplacesPhoto(s: Store, reportId: nat, fields: Fields, front: Photo, up: Upload, stem: string)
    requires Valid(s.db) && s.db.photoTable
    requires SafeListing(s.db, s.disk, reportId) == [front]
    requires up.filename != "" && Storable(up)
    requires FreshNames(s.db, [up], [stem])
    ensures var (s', out) := Edit(s, reportId, fields, [front.id], [up], ["Back"], [stem]);
            var name := StoredName(stem, up.filename);
            && out == Success(())
            && SafeListing(s'.db, s'.disk, reportId) == [Photo(s.db.nextPhotoId, reportId, name, name, Some("Back"))]
            && Valid(s'.db)
  {
    var ps := s.db.photos;
    var s' := Edit(s, reportId, fields, [front.id], [up], ["Back"], [stem]).0;
    var name := StoredName(stem, up.filename);
    var row := Photo(s.db.nextPhotoId, reportId, name, name, Some("Back"));
    var kept := Filter(NotRemoved([front.id]), ps);
    EditCommits(s, reportId, fields, [front.id], [up], ["Back"], [stem]);
    SinglePlannedRow(s.db.nextPhotoId, reportId, up, stem, "Back", EditFallbackTitle);
    assert s'.db.photos == kept + [row];
    SafeListingAppend(s'.db, s'.disk, reportId, kept, [row]);
    assert SafeListing(s'.db.(photos := kept), s'.disk, reportId) == [] by {
      forall q | q in kept ensures !Listed(reportId, s'.disk)(q) {
        assert q in ps && q.path in Paths(ps);
      }
      FilterNone(Listed(reportId, s'.disk), kept);
    }
    assert SafeListing(s'.db.(photos := [row]), s'.disk, reportId) == [row] by {
      assert name in s'.disk;
      assert Listed(reportId, s'.disk)(row);
    }
  }

  /** A batch of one upload with a file name plans exactly one row, under
      that upload's stored name and the given title. */
  lemma SinglePlannedRow(next: nat, reportId: nat, up: Upload, stem: string, title: string, fallback: string)
    requires up.filename != ""
    ensures var name := StoredName(stem, up.filename);
            && PlannedRows(next, reportId, [up], [stem], [title], fallback, NonEmptyFrom([up], 0))
               == [Photo(next, reportId, name, name, Some(title))]
            && PlannedNames([up], [stem], 0) == {name}
  {
    var ix := NonEmptyFrom([up], 0);
    assert NonEmptyFrom([up], 1) == [];
    assert ix == [0];
    PlannedRowsAt(next, reportId, [up], [stem], [title], fallback, ix);
    NameAtIs([up], [stem], 0);
  }

  /** A form with an empty file slot, then two pictures, and two titles: the
      empty slot uses up the first title, the second picture falls back to
      `Sem nome`. */
  const WalkUploads := [Upload("", true), Upload("Foto.JPG", true), Upload("Foto.JPG", true)]
  const WalkTitles := ["first", "Front"]
  const WalkStems := ["u0", "u1", "u2"]

  /** Saving that form into an empty store yields report 1 with two photos,
      in upload order, and its PDF is named after the sanitised order number. */
  lemma SaveFormWalkThrough(fields: Fields, now: nat, isAlnum: char -> bool)
    requires fields.numOs == Some("OS 2024/01") && AgreesOnAscii(isAlnum)
    ensures var (s', out) := Save(Store(EmptyDb, {}), fields, now, WalkUploads, WalkTitles, WalkStems);
            && out == Success(1)
            && View(s', 1) == Some((Report(1, fields, now),
                                    [Photo(1, 1, "u1.jpg", "u1.jpg", Some("Front")),
                                     Photo(2, 1, "u2.jpg", "u2.jpg", Some("Sem nome"))]))
            && ExportPdf(s', 1, Inline, isAlnum) == Some(PdfResponse(Inline, "relatorio_OS_2024_01.pdf"))
  {
    WalkSaved(fields, now);
    WalkExported(fields, now, isAlnum);
  }

  lemma WalkSaved(fields: Fields, now: nat)
    ensures var (s', out) := Save(Store(EmptyDb, {}), fields, now, WalkUploads, WalkTitles, WalkStems);
            && out == Success(1)
            && View(s', 1) == Some((Report(1, fields, now),
                                    [Photo(1, 1, "u1.jpg", "u1.jpg", Some("Front")),
                                     Photo(2, 1, "u2.jpg", "u2.jpg", Some("Sem nome"))]))
  {
    EmptyDbValid();
    WalkPlan();
    WalkFresh();
    WalkStorable();
    SaveThenView(Store(EmptyDb, {}), fields, now, WalkUploads, WalkTitles, WalkStems);
  }

  lemma WalkStorable()
    ensures forall j :: 0 <= j < |WalkUploads| && WalkUploads[j].filename != "" ==> Storable(WalkUploads[j])
  {
    UpperJpgExtension();
  }

  lemma WalkExported(fields: Fields, now: nat, isAlnum: char -> bool)
    requires fields.numOs == Some("OS 2024/01") && AgreesOnAscii(isAlnum)
    ensures var s' := Save(Store(EmptyDb, {}), fields, now, WalkUploads, WalkTitles, WalkStems).0;
            ExportPdf(s', 1, Inline, isAlnum) == Some(PdfResponse(Inline, "relatorio_OS_2024_01.pdf"))
  {
    var s := Store(EmptyDb, {});
    var s' := Save(s, fields, now, WalkUploads, WalkTitles, WalkStems).0;
    var report := Report(1, fields, now);
    assert FindReport(s'.db.reports, 1) == Some(report) by {
      WalkSaved(fields, now);
      InsertReportEffect(s.db, fields, now);
    }
    ExportFound(s', 1, Inline, isAlnum, report);
    OrderNumberWithPunctuation(1, isAlnum);
  }

  /** A report that the lookup finds is exported under its own order number. */
  lemma ExportFound(s: Store, reportId: nat, disposition: Disposition, isAlnum: char -> bool, report: Report)
    requires FindReport(s.db.reports, reportId) == Some(report)
    ensures ExportPdf(s, reportId, disposition, isAlnum)
            == Some(PdfResponse(disposition, PdfFileName(report.fields.numOs, reportId, isAlnum)))
  {
  }

  /** The names, the positions and the rows the walk-through form plans. */
  lemma WalkPlan()
    ensures PlannedRows(1, 1, WalkUploads, WalkStems, WalkTitles, SaveFallbackTitle, NonEmptyFrom(WalkUploads, 0))
            == [Photo(1, 1, "u1.jpg", "u1.jpg", Some("Front")), Photo(2, 1, "u2.jpg", "u2.jpg", Some("Sem nome"))]
  {
    WalkNames();
    WalkPositions();
    PlannedRowsAt(1, 1, WalkUploads, WalkStems, WalkTitles, SaveFallbackTitle, [1, 2]);
  }

  lemma WalkPositions()
    ensures NonEmptyFrom(WalkUploads, 0) == [1, 2]
  {
    assert NonEmptyFrom(WalkUploads, 2) == [2];
  }

  lemma WalkNames()
    ensures NameAt(WalkUploads, WalkStems, 1) == "u1.jpg"
    ensures NameAt(WalkUploads, WalkStems, 2) == "u2.jpg"
  {
    JpegUploadName(WalkUploads, WalkStems, 1);
    JpegUploadName(WalkUploads, WalkStems, 2);
    WalkStemsWithJpg();
  }

  lemma WalkStemsWithJpg()
    ensures WalkStems[1] + ".jpg" == "u1.jpg" && WalkStems[2] + ".jpg" == "u2.jpg"
  {
    assert "u1" + ".jpg" == "u1.jpg";
    assert "u2" + ".jpg" == "u2.jpg";
  }

  /** An upload named `Foto.JPG` is stored under its stem and `.jpg`. */
  lemma JpegUploadName(uploads: seq<Upload>, stems: seq<string>, j: nat)
    requires |stems| == |uploads| && j < |uploads| && uploads[j].filename == "Foto.JPG"
    ensures NameAt(uploads, stems, j) == stems[j] + ".jpg"
  {
    UpperCaseExtensionLowered(stems[j]);
    NameAtIs(uploads, stems, j);
  }

  lemma WalkFresh()
    ensures FreshNames(EmptyDb, WalkUploads, WalkStems)
  {
    WalkNames();
    assert "u1.jpg"[1] != "u2.jpg"[1];
  }
}

=== FILE: seqs.dfy ===
/** Order-preserving selection and lookup over sequences: the shape of every
    `SELECT ... WHERE` over a table and of the list comprehensions the
    application builds from query results. */
module Seqs {
  import opened Wrappers

  /** The elements of `s` that satisfy `keep`, in their original order. */
  function Filter<T(!new)>(keep: T -> bool, s: seq<T>): (r: seq<T>)
    ensures |r| <= |s|
    ensures forall x :: x in r <==> x in s && keep(x)
  {
    if s == [] then []
    else (if keep(s[0]) then [s[0]] else []) + Filter(keep, s[1..])
  }

  /** The first element of `s` that satisfies `has`, if any. */
  function First<T(!new)>(has: T -> bool, s: seq<T>): (r: Option<T>)
    ensures r.Some? ==> r.value in s && has(r.value)
    ensures r.None? <==> forall x :: x in s ==> !has(x)
  {
    if s == [] then None
    else if has(s[0]) then Some(s[0])
    else First(has, s[1..])
  }

  /** Every earlier element stands in `rel` to every later one. */
  ghost predicate Pairwise<T>(rel: (T, T) -> bool, s: seq<T>) {
    forall i, j :: 0 <= i < j < |s| ==> rel(s[i], s[j])
  }

  /** Selection distributes over concatenation: the order of the input is the
      order of the output. */
  lemma {:induction false} FilterAppend<T(!new)>(keep: T -> bool, a: seq<T>, b: seq<T>)
    ensures Filter(keep, a + b) == Filter(keep, a) + Filter(keep, b)
  {
    if a == [] {
      assert a + b == b;
    } else {
      assert (a + b)[1..] == a[1..] + b;
      FilterAppend(keep, a[1..], b);
    }
  }

  /** Selecting with a predicate that every element satisfies changes nothing. */
  lemma {:induction false} FilterAll<T(!new)>(keep: T -> bool, s: seq<T>)
    requires forall x :: x in s ==> keep(x)
    ensures Filter(keep, s) == s
  {
    if s != [] {
      FilterAll(keep, s[1..]);
    }
  }

  /** Selecting with a predicate no element satisfies yields nothing. */
  lemma FilterNone<T(!new)>(keep: T -> bool, s: seq<T>)
    requires forall x :: x in s ==> !keep(x)
    ensures Filter(keep, s) == []
  {
  }

  /** Predicates that agree on the elements select the same subsequence. */
  lemma {:induction false} FilterCongruent<T(!new)>(f: T -> bool, g: T -> bool, s: seq<T>)
    requires forall x :: x in s ==> f(x) == g(x)
    ensures Filter(f, s) == Filter(g, s)
  {
    if s != [] {
      FilterCongruent(f, g, s[1..]);
    }
  }

  /** Selecting twice is selecting once with the conjunction. */
  lemma {:induction false} FilterFilter<T(!new)>(f: T -> bool, g: T -> bool, h: T -> bool, s: seq<T>)
    requires forall x :: x in s ==> (h(x) <==> g(x) && f(x))
    ensures Filter(f, Filter(g, s)) == Filter(h, s)
  {
    if s != [] {
      var head := if g(s[0]) then [s[0]] else [];
      FilterFilter(f, g, h, s[1..]);
      FilterAppend(f, head, Filter(g, s[1..]));
      if g(s[0]) {
        assert Filter(f, head) == (if f(s[0]) then [s[0]] else []) + Filter(f, head[1..]);
        assert head[1..] == [];
      }
    }
  }

  /** When exactly the element at `k` fails `keep`, selection removes that
      element and nothing else. */
  lemma FilterRemovesOne<T(!new)>(keep: T -> bool, s: seq<T>, k: nat)
    requires k < |s| && !keep(s[k])
    requires forall i :: 0 <= i < |s| && i != k ==> keep(s[i])
    ensures Filter(keep, s) == s[..k] + s[k+1..]
  {
    SplitAt(s, k);
    FilterSkips(keep, s[..k], s[k], s[k+1..]);
    KeptWhole(keep, s, k);
  }

  lemma SplitAt<T>(s: seq<T>, k: nat)
    requires k < |s|
    ensures s == s[..k] + ([s[k]] + s[k+1..])
  {
  }

  /** Selection over `a`, a dropped element, then `b`, joins the selections of `a` and `b`. */
  lemma FilterSkips<T(!new)>(keep: T -> bool, a: seq<T>, x: T, b: seq<T>)
    requires !keep(x)
    ensures Filter(keep, a + ([x] + b)) == Filter(keep, a) + Filter(keep, b)
  {
    FilterAppend(keep, a, [x] + b);
    FilterAppend(keep, [x], b);
    FilterDropsOne(keep, x);
    assert [] + Filter(keep, b) == Filter(keep, b);
  }

  /** The parts before and after the one dropped position are selected whole. */
  lemma KeptWhole<T(!new)>(keep: T -> bool, s: seq<T>, k: nat)
    requires k < |s|
    requires forall i :: 0 <= i < |s| && i != k ==> keep(s[i])
    ensures Filter(keep, s[..k]) == s[..k] && Filter(keep, s[k+1..]) == s[k+1..]
  {
    var before, after := s[..k], s[k+1..];
    forall x | x in before ensures keep(x) {
      var i :| 0 <= i < |before| && before[i] == x;
      assert s[i] == x;
    }
    forall x | x in after ensures keep(x) {
      var i :| 0 <= i < |after| && after[i] == x;
      assert s[k + 1 + i] == x;
    }
    FilterAll(keep, before);
    FilterAll(keep, after);
  }

  lemma FilterDropsOne<T(!new)>(keep: T -> bool, x: T)
    requires !keep(x)
    ensures Filter(keep, [x]) == []
  {
    assert [x][1..] == [];
  }

  /** A pairwise relation that holds of a sequence holds of every selection from it. */
  lemma {:induction false} FilterPairwise<T(!new)>(rel: (T, T) -> bool, keep: T -> bool, s: seq<T>)
    requires Pairwise(rel, s)
    ensures Pairwise(rel, Filter(keep, s))
  {
    if s != [] {
      var rest := Filter(keep, s[1..]);
      assert Pairwise(rel, s[1..]) by {
        forall i, j | 0 <= i < j < |s[1..]| ensures rel(s[1..][i], s[1..][j]) {
          assert s[1..][i] == s[i + 1] && s[1..][j] == s[j + 1];
        }
      }
      FilterPairwise(rel, keep, s[1..]);
      if keep(s[0]) {
        var r := [s[0]] + rest;
        forall i, j | 0 <= i < j < |r| ensures rel(r[i], r[j]) {
          assert r[j] == rest[j - 1];
          assert r[j] in s[1..];
          var m :| 0 <= m < |s[1..]| && s[1..][m] == r[j];
          if i == 0 {
            assert rel(s[0], s[m + 1]);
          } else {
            assert r[i] == rest[i - 1];
          }
        }
      }
    }
  }

  /** Concatenation keeps a pairwise relation when it holds within each part
      and from every element of the first part to every element of the second. */
  lemma PairwiseAppend<T(!new)>(rel: (T, T) -> bool, a: seq<T>, b: seq<T>)
    requires Pairwise(rel, a) && Pairwise(rel, b)
    requires forall x, y :: x in a && y in b ==> rel(x, y)
    ensures Pairwise(rel, a + b)
  {
    var s := a + b;
    forall i, j | 0 <= i < j < |s| ensures rel(s[i], s[j]) {
      if j < |a| {
        assert s[i] == a[i] && s[j] == a[j];
      } else if i < |a| {
        assert s[i] == a[i] && s[j] == b[j - |a|];
      } else {
        assert s[i] == b[i - |a|] && s[j] == b[j - |a|];
      }
    }
  }
}

=== FILE: tables.dfy ===
/** The persistent state: the `relatorios` and `fotos_relatorio` tables of the
    SQLite file, held as sequences in row order, and the set of file names
    present in the upload folder. Table operations here are the effects of
    the application's individual SQL statements and file calls; the request
    handlers compose them. */
module Tables {
  import opened Wrappers
  import opened Seqs

  /** The 21 free-text columns of a report, as the form submits them. Each is
      absent (`None`) when the form omits the field. */
  datatype Fields = Fields(
    codRev: Option<string>, numOs: Option<string>, cliente: Option<string>,
    data: Option<string>, tecnico: Option<string>, nivel: Option<string>,
    contato: Option<string>, modelo: Option<string>, prefixo: Option<string>,
    serie: Option<string>, instrucoes: Option<string>, reclamacao: Option<string>,
    causa: Option<string>, dano: Option<string>, comentarios: Option<string>,
    pecaNumero: Option<string>, falhaCodigo: Option<string>, falhaQtd: Option<string>,
    smcsCode: Option<string>, grupoPart: Option<string>,
    comentariosAdicionais: Option<string>)

  /** A row of `relatorios`; `createdAt` is the clock reading taken at insert. */
  datatype Report = Report(id: nat, fields: Fields, createdAt: nat)

  /** A row of `fotos_relatorio`: `fileName` is `nome_arquivo`, `path` is
      `caminho_arquivo`, `title` is `titulo` (NULL when absent). */
  datatype Photo = Photo(id: nat, reportId: nat, fileName: string, path: string, title: Option<string>)

  /** The database. `photoTable` is false when `fotos_relatorio` has not been
      created; the id counters play the part of SQLite's AUTOINCREMENT. */
  datatype Db = Db(reports: seq<Report>, photos: seq<Photo>, photoTable: bool,
                   nextReportId: nat, nextPhotoId: nat)

  /** The database together with the names of the files in the upload folder. */
  datatype Store = Store(db: Db, disk: set<string>)

  /** A freshly initialised database: both tables exist and are empty. */
  const EmptyDb := Db([], [], true, 1, 1)

  ghost predicate ReportOrder(a: Report, b: Report) {
    a.id < b.id
  }

  /** Later photo rows have larger ids and never share a stored file. */
  ghost predicate PhotoOrder(a: Photo, b: Photo) {
    a.id < b.id && a.path != b.path
  }

  /** The database invariant: ids are handed out in increasing order below the
      counters, every photo's two name columns agree, and no two photo rows
      point at the same file. */
  ghost predicate Valid(db: Db) {
    && 1 <= db.nextReportId && 1 <= db.nextPhotoId
    && Pairwise(ReportOrder, db.reports)
    && Pairwise(PhotoOrder, db.photos)
    && (forall r :: r in db.reports ==> 1 <= r.id < db.nextReportId)
    && (forall p :: p in db.photos ==> 1 <= p.id < db.nextPhotoId && p.fileName == p.path)
  }

  lemma EmptyDbValid()
    ensures Valid(EmptyDb)
  {
  }

  function HasReportId(id: int): Report -> bool {
    (r: Report) => r.id == id
  }

  function HasPhotoId(id: int): Photo -> bool {
    (p: Photo) => p.id == id
  }

  function LacksPhotoId(id: int): Photo -> bool {
    (p: Photo) => p.id != id
  }

  /** `SELECT * FROM relatorios WHERE id = ?`, first row. */
  function FindReport(reports: seq<Report>, id: int): (r: Option<Report>)
    ensures r.Some? ==> r.value in reports && r.value.id == id
    ensures r.None? <==> forall x :: x in reports ==> x.id != id
  {
    First(HasReportId(id), reports)
  }

  /** `SELECT ... FROM fotos_relatorio WHERE id = ?`, first row. */
  function FindPhoto(photos: seq<Photo>, id: int): (r: Option<Photo>)
    ensures r.Some? ==> r.value in photos && r.value.id == id
    ensures r.None? <==> forall x :: x in photos ==> x.id != id
  {
    First(HasPhotoId(id), photos)
  }

  /** `INSERT INTO relatorios`: the new row takes the next id. */
  function InsertReport(db: Db, fields: Fields, now: nat): (db': Db)
    ensures |db'.reports| == |db.reports| + 1 && db'.reports[..|db.reports|] == db.reports
    ensures db'.reports[|db.reports|] == Report(db.nextReportId, fields, now)
    ensures db'.nextReportId == db.nextReportId + 1
    ensures db'.photos == db.photos && db'.photoTable == db.photoTable && db'.nextPhotoId == db.nextPhotoId
  {
    db.(reports := db.reports + [Report(db.nextReportId, fields, now)],
        nextReportId := db.nextReportId + 1)
  }

  /** Inserting a report keeps the invariant, makes the new row findable under
      the id it was given, and leaves every other lookup as it was. */
  lemma InsertReportEffect(db: Db, fields: Fields, now: nat)
    requires Valid(db)
    ensures Valid(InsertReport(db, fields, now))
    ensures FindReport(db.reports, db.nextReportId) == None
    ensures FindReport(InsertReport(db, fields, now).reports, db.nextReportId)
            == Some(Report(db.nextReportId, fields, now))
    ensures forall id :: id != db.nextReportId ==>
              FindReport(InsertReport(db, fields, now).reports, id) == FindReport(db.reports, id)
  {
    var db' := InsertReport(db, fields, now);
    var added := Report(db.nextReportId, fields, now);
    assert forall r :: r in db'.reports ==> r in db.reports || r == added;
    forall i, j | 0 <= i < j < |db'.reports| ensures ReportOrder(db'.reports[i], db'.reports[j]) {
      if j == |db.reports| {
        assert db'.reports[i] in db.reports;
      } else {
        assert db'.reports[i] == db.reports[i] && db'.reports[j] == db.reports[j];
      }
    }
    forall id: int ensures FindReport(db'.reports, id) == (if id == added.id then Some(added) else FindReport(db.reports, id)) {
      FirstOfAppend(HasReportId(id), db.reports, [added]);
    }
  }

  /** Looking up in `a + b` looks in `a` first. */
  lemma {:induction false} FirstOfAppend<T(!new)>(has: T -> bool, a: seq<T>, b: seq<T>)
    ensures First(has, a + b) == if First(has, a).Some? then First(has, a) else First(has, b)
  {
    if a == [] {
      assert a + b == b;
    } else {
      assert (a + b)[1..] == a[1..] + b;
      FirstOfAppend(has, a[1..], b);
    }
  }

  /** `UPDATE relatorios SET <all 21 columns> WHERE id = ?`. */
  function UpdateReport(reports: seq<Report>, id: int, fields: Fields): (r: seq<Report>)
    ensures |r| == |reports|
    ensures forall i :: 0 <= i < |r| ==>
              r[i].id == reports[i].id && r[i].createdAt == reports[i].createdAt
              && r[i].fields == (if reports[i].id == id then fields else reports[i].fields)
    ensures (forall x :: x in reports ==> x.id != id) ==> r == reports
  {
    if reports == [] then []
    else
      var head := if reports[0].id == id then reports[0].(fields := fields) else reports[0];
      [head] + UpdateReport(reports[1..], id, fields)
  }

  /** After an update the row with that id, if there is one, carries the new
      fields under its old id and creation time; no row is added or removed. */
  lemma UpdateReportEffect(db: Db, id: int, fields: Fields)
    requires Valid(db)
    ensures Valid(db.(reports := UpdateReport(db.reports, id, fields)))
    ensures FindReport(UpdateReport(db.reports, id, fields), id) ==
            if FindReport(db.reports, id).Some?
            then Some(FindReport(db.reports, id).value.(fields := fields))
            else None
  {
    UpdateReportValid(db, id, fields);
    UpdateReportFound(db.reports, id, fields);
  }

  lemma UpdateReportFound(reports: seq<Report>, id: int, fields: Fields)
    requires Pairwise(ReportOrder, reports)
    ensures FindReport(UpdateReport(reports, id, fields), id) ==
            if FindReport(reports, id).Some?
            then Some(FindReport(reports, id).value.(fields := fields))
            else None
  {
    var r := UpdateReport(reports, id, fields);
    match FindReport(reports, id)
    case None =>
    case Some(x) =>
      var i :| 0 <= i < |reports| && reports[i] == x;
      UniqueIndex(reports, i);
      assert r[i] == x.(fields := fields);
      FirstAt(HasReportId(id), r, i);
  }

  lemma UpdateReportValid(db: Db, id: int, fields: Fields)
    requires Valid(db)
    ensures Valid(db.(reports := UpdateReport(db.reports, id, fields)))
  {
    var r := UpdateReport(db.reports, id, fields);
    forall x | x in r ensures 1 <= x.id < db.nextReportId {
      var i :| 0 <= i < |r| && r[i] == x;
      assert db.reports[i] in db.reports;
    }
    forall i, j | 0 <= i < j < |r| ensures ReportOrder(r[i], r[j]) {
      assert ReportOrder(db.reports[i], db.reports[j]);
    }
  }

  /** In a valid report table, the row at `i` is the only one with its id. */
  lemma UniqueIndex(reports: seq<Report>, i: nat)
    requires Pairwise(ReportOrder, reports) && i < |reports|
    ensures forall j :: 0 <= j < |reports| && j != i ==> reports[j].id != reports[i].id
  {
    forall j | 0 <= j < |reports| && j != i ensures reports[j].id != reports[i].id {
      if j < i { assert ReportOrder(reports[j], reports[i]); } else { assert ReportOrder(reports[i], reports[j]); }
    }
  }

  /** When `s[i]` is the only element satisfying `has`, it is the first. */
  lemma {:induction false} FirstAt<T(!new)>(has: T -> bool, s: seq<T>, i: nat)
    requires i < |s| && has(s[i])
    requires forall j :: 0 <= j < |s| && j != i ==> !has(s[j])
    ensures First(has, s) == Some(s[i])
  {
    if i > 0 {
      FirstAt(has, s[1..], i - 1);
    }
  }

  /** `INSERT INTO fotos_relatorio`: both name columns hold `name`. */
  function InsertPhoto(db: Db, reportId: nat, name: string, title: Option<string>): (db': Db)
  {
    db.(photos := db.photos + [Photo(db.nextPhotoId, reportId, name, name, title)],
        nextPhotoId := db.nextPhotoId + 1)
  }

  /** The insert keeps every existing photo row in place, adds one row at the
      end under the next id with `name` in both name columns, advances the
      photo counter by one and leaves the report table alone. */
  lemma InsertPhotoAppends(db: Db, reportId: nat, name: string, title: Option<string>)
    ensures var db' := InsertPhoto(db, reportId, name, title);
            && |db'.photos| == |db.photos| + 1 && db'.photos[..|db.photos|] == db.photos
            && db'.photos[|db.photos|] == Photo(db.nextPhotoId, reportId, name, name, title)
            && db'.nextPhotoId == db.nextPhotoId + 1
            && db'.reports == db.reports && db'.photoTable == db.photoTable && db'.nextReportId == db.nextReportId
  {
  }

  /** The set of files the photo rows point at. */
  ghost function Paths(photos: seq<Photo>): set<string> {
    set p | p in photos :: p.path
  }

  /** Inserting a photo under a name no row uses keeps the invariant; the new
      row has an id no existing row has. */
  lemma InsertPhotoValid(db: Db, reportId: nat, name: string, title: Option<string>)
    requires Valid(db) && name !in Paths(db.photos)
    ensures Valid(InsertPhoto(db, reportId, name, title))
    ensures forall p :: p in db.photos ==> p.id != db.nextPhotoId
  {
    var ps := InsertPhoto(db, reportId, name, title).photos;
    var added := Photo(db.nextPhotoId, reportId, name, name, title);
    assert forall p :: p in ps ==> p in db.photos || p == added;
    forall i, j | 0 <= i < j < |ps| ensures PhotoOrder(ps[i], ps[j]) {
      if j == |db.photos| {
        assert ps[i] in db.photos;
      } else {
        assert ps[i] == db.photos[i] && ps[j] == db.photos[j];
      }
    }
  }

  /** The row and file effect of deleting photo `id`: look up its
      `caminho_arquivo`; run `DELETE ... WHERE id = ?`; remove that file from
      the upload folder if the row was found. An unknown id changes nothing. */
  function DropPhoto(db: Db, disk: set<string>, id: int): (r: (Db, set<string>))
    ensures forall p :: p in r.0.photos <==> p in db.photos && p.id != id
    ensures r.0 == db.(photos := r.0.photos)
    ensures r.1 == disk || exists p :: p in db.photos && p.id == id && r.1 == disk - {p.path}
    ensures (forall p :: p in db.photos ==> p.id != id) ==> r.1 == disk
  {
    var kept := db.(photos := Filter(LacksPhotoId(id), db.photos));
    match FindPhoto(db.photos, id)
    case Some(p) => (kept, disk - {p.path})
    case None => (kept, disk)
  }

  /** Dropping the photo at index `k` removes that row and its file, and
      nothing else; the invariant is kept. */
  lemma DropPhotoEffect(db: Db, disk: set<string>, k: nat)
    requires Valid(db) && k < |db.photos|
    ensures DropPhoto(db, disk, db.photos[k].id)
            == (db.(photos := db.photos[..k] + db.photos[k+1..]), disk - {db.photos[k].path})
    ensures Valid(DropPhoto(db, disk, db.photos[k].id).0)
  {
    var ps, id := db.photos, db.photos[k].id;
    forall j | 0 <= j < |ps| && j != k ensures LacksPhotoId(id)(ps[j]) {
      if j < k { assert PhotoOrder(ps[j], ps[k]); } else { assert PhotoOrder(ps[k], ps[j]); }
    }
    FilterRemovesOne(LacksPhotoId(id), ps, k);
    FirstAt(HasPhotoId(id), ps, k);
    FilterPairwise(PhotoOrder, LacksPhotoId(id), ps);
  }

  /** Dropping the row just inserted restores the table, except that its id
      stays used, and the folder. */
  lemma DropLastInserted(db: Db, disk: set<string>, reportId: nat, name: string)
    requires forall p :: p in db.photos ==> p.id != db.nextPhotoId
    requires name !in disk
    ensures FindPhoto(InsertPhoto(db, reportId, name, None).photos, db.nextPhotoId)
            == Some(Photo(db.nextPhotoId, reportId, name, name, None))
    ensures DropPhoto(InsertPhoto(db, reportId, name, None), disk + {name}, db.nextPhotoId)
            == (db.(nextPhotoId := db.nextPhotoId + 1), disk)
  {
    var db1 := InsertPhoto(db, reportId, name, None);
    LastInsertedFound(db, reportId, name);
    assert DropPhoto(db1, disk + {name}, db.nextPhotoId) == (db1.(photos := db.photos), (disk + {name}) - {name});
    assert (disk + {name}) - {name} == disk;
  }

  /** Right after an insert, the new id picks out exactly the new row. */
  lemma LastInsertedFound(db: Db, reportId: nat, name: string)
    requires forall p :: p in db.photos ==> p.id != db.nextPhotoId
    ensures var db1 := InsertPhoto(db, reportId, name, None);
            && Filter(LacksPhotoId(db.nextPhotoId), db1.photos) == db.photos
            && FindPhoto(db1.photos, db.nextPhotoId) == Some(Photo(db.nextPhotoId, reportId, name, name, None))
  {
    var id := db.nextPhotoId;
    var row := Photo(id, reportId, name, name, None);
    var ps := db.photos + [row];
    FilterAppend(LacksPhotoId(id), db.photos, [row]);
    FilterAll(LacksPhotoId(id), db.photos);
    assert Filter(LacksPhotoId(id), [row]) == [];
    FirstAt(HasPhotoId(id), ps, |db.photos|);
  }

  /** Dropping an id no row has changes neither the table nor the folder. */
  lemma DropPhotoUnknown(db: Db, disk: set<string>, id: int)
    requires forall p :: p in db.photos ==> p.id != id
    ensures DropPhoto(db, disk, id) == (db, disk)
  {
    FilterAll(LacksPhotoId(id), db.photos);
  }

  /** In a valid photo table, two different rows differ in id and in file. */
  lemma DistinctPhotos(ps: seq<Photo>, a: nat, b: nat)
    requires Pairwise(PhotoOrder, ps) && a < |ps| && b < |ps|
    ensures a != b ==> ps[a].id != ps[b].id && ps[a].path != ps[b].path
  {
    if a < b { assert PhotoOrder(ps[a], ps[b]); }
    else if b < a { assert PhotoOrder(ps[b], ps[a]); }
  }

  /** The files of the rows with photo id `id`. */
  ghost function PathsWithId(photos: seq<Photo>, id: int): set<string> {
    set p | p in photos && p.id == id :: p.path
  }

  /** In a valid table, dropping a photo deletes every row with its id and
      exactly those rows' files, and keeps the table valid. */
  lemma DropPhotoValid(db: Db, disk: set<string>, id: int)
    requires Valid(db)
    ensures DropPhoto(db, disk, id)
            == (db.(photos := Filter(LacksPhotoId(id), db.photos)), disk - PathsWithId(db.photos, id))
    ensures Valid(DropPhoto(db, disk, id).0)
  {
    FilterPairwise(PhotoOrder, LacksPhotoId(id), db.photos);
    PathsWithIdFound(db.photos, id);
    assert disk - {} == disk;
  }

  /** In a table without repeated ids, the files with photo id `id` are the
      file of the row the lookup finds, or none. */
  lemma PathsWithIdFound(ps: seq<Photo>, id: int)
    requires Pairwise(PhotoOrder, ps)
    ensures PathsWithId(ps, id) == if FindPhoto(ps, id).Some? then {FindPhoto(ps, id).value.path} else {}
  {
    match FindPhoto(ps, id)
    case None =>
      assert forall q :: q in ps ==> !HasPhotoId(id)(q);
    case Some(p) =>
      var k :| 0 <= k < |ps| && ps[k] == p;
      forall q | q in ps && q.id == id ensures q == p {
        var j :| 0 <= j < |ps| && ps[j] == q;
        DistinctPhotos(ps, j, k);
      }
  }

  /** A photo is listed when it belongs to the report and its file is on disk. */
  function Listed(reportId: int, disk: set<string>): (listed: Photo -> bool) {
    (p: Photo) => p.reportId == reportId && p.fileName in disk
  }

  /** `buscar_fotos_seguro`: the report's photo rows whose file still exists,
      in row order; empty when the photo table does not exist. */
  function SafeListing(db: Db, disk: set<string>, reportId: int): (r: seq<Photo>)
    ensures !db.photoTable ==> r == []
    ensures db.photoTable ==>
              forall p :: p in r <==> p in db.photos && p.reportId == reportId && p.fileName in disk
    ensures |r| <= |db.photos|
  {
    if db.photoTable then Filter(Listed(reportId, disk), db.photos) else []
  }

  /** The listing of a table made of two parts is the listing of the first
      part followed by that of the second: stored row order is kept. */
  lemma SafeListingAppend(db: Db, disk: set<string>, reportId: int, a: seq<Photo>, b: seq<Photo>)
    requires db.photos == a + b
    ensures SafeListing(db, disk, reportId)
            == SafeListing(db.(photos := a), disk, reportId) + SafeListing(db.(photos := b), disk, reportId)
  {
    FilterAppend(Listed(reportId, disk), a, b);
  }

  /** In a valid table the listing comes in increasing photo id order, which
      is the order the rows were stored in. */
  lemma SafeListingInOrder(db: Db, disk: set<string>, reportId: int)
    requires Valid(db)
    ensures var r := SafeListing(db, disk, reportId);
            forall i, j :: 0 <= i < j < |r| ==> r[i].id < r[j].id
  {
    if db.photoTable {
      FilterPairwise(PhotoOrder, Listed(reportId, disk), db.photos);
    }
  }
}

=== FILE: text.dfy ===
/** Character and string helpers the filename logic is built from. Python's
    `str.lower` is modelled on ASCII letters only; `str(n)` for a non-negative
    integer is its decimal rendering. */
module Text {

  predicate IsUpper(c: char) {
    'A' <= c <= 'Z'
  }

  function LowerChar(c: char): char {
    if IsUpper(c) then (c as int + 32) as char else c
  }

  /** `s` with every ASCII capital replaced by its small letter. */
  function Lower(s: string): (r: string)
    ensures |r| == |s|
    ensures forall i :: 0 <= i < |s| ==> !IsUpper(r[i])
    ensures forall i :: 0 <= i < |s| ==>
              if IsUpper(s[i]) then r[i] as int == s[i] as int + 32 else r[i] == s[i]
  {
    seq(|s|, i requires 0 <= i < |s| => LowerChar(s[i]))
  }

  /** Lower-casing never creates or removes a separator character. */
  lemma LowerCharKeepsSeparators(c: char)
    ensures LowerChar(c) == '.' <==> c == '.'
    ensures LowerChar(c) == '/' <==> c == '/'
  {
  }

  lemma LowerIdempotent(s: string)
    ensures Lower(Lower(s)) == Lower(s)
  {
  }

  /** Python's `s.endswith(suffix)`. */
  predicate EndsWith(s: string, suffix: string) {
    |suffix| <= |s| && s[|s| - |suffix|..] == suffix
  }

  /** A string ends with the last character of each of its non-empty suffixes. */
  lemma EndsWithLast(s: string, suffix: string)
    requires |suffix| > 0
    ensures EndsWith(s, suffix) ==> s[|s| - 1] == suffix[|suffix| - 1]
  {
    if |suffix| <= |s| {
      assert s[|s| - |suffix|..][|suffix| - 1] == s[|s| - 1];
    }
  }

  /** Python's `s.rfind(c)`: the index of the last occurrence of `c`, or -1. */
  function LastIndex(s: string, c: char): (r: int)
    ensures -1 <= r < |s|
    ensures r >= 0 ==> s[r] == c
    ensures forall k :: r < k < |s| ==> s[k] != c
  {
    if |s| == 0 then -1
    else if s[|s| - 1] == c then |s| - 1
    else LastIndex(s[..|s| - 1], c)
  }

  /** The last occurrence is the one with no further occurrence after it. */
  lemma LastIndexIs(s: string, c: char, i: int)
    requires -1 <= i < |s|
    requires i >= 0 ==> s[i] == c
    requires forall k :: i < k < |s| ==> s[k] != c
    ensures LastIndex(s, c) == i
  {
  }

  predicate IsDigits(s: string) {
    forall i :: 0 <= i < |s| ==> '0' <= s[i] <= '9'
  }

  function DigitChar(d: nat): char
    requires d < 10
  {
    ('0' as int + d) as char
  }

  /** Python's `str(n)` for a non-negative integer. */
  function Decimal(n: nat): (r: string)
    ensures |r| >= 1 && IsDigits(r)
    ensures r[0] == '0' <==> n == 0
    decreases n
  {
    if n < 10 then [DigitChar(n)] else Decimal(n / 10) + [DigitChar(n % 10)]
  }

  /** The number a string of decimal digits denotes. */
  function DecimalValue(s: string): nat
    requires IsDigits(s)
  {
    if s == [] then 0
    else DecimalValue(s[..|s| - 1]) * 10 + (s[|s| - 1] as int - '0' as int)
  }

  /** Reading back the decimal rendering of `n` yields `n`. */
  lemma {:induction false} DecimalRoundTrip(n: nat)
    ensures DecimalValue(Decimal(n)) == n
    decreases n
  {
    var t := Decimal(n);
    if n < 10 {
      assert t[..|t| - 1] == [];
    } else {
      assert t[..|t| - 1] == Decimal(n / 10);
      DecimalRoundTrip(n / 10);
    }
  }

  /** Distinct numbers have distinct decimal renderings. */
  lemma DecimalInjective(m: nat, n: nat)
    requires m != n
    ensures Decimal(m) != Decimal(n)
  {
    DecimalRoundTrip(m);
    DecimalRoundTrip(n);
  }
}

=== FILE: wrappers.dfy ===
/** Optional values and outcomes used across the model: `Option` for a value
    that may be absent (a missing form field, a row that is not found) and
    `Result` for an operation that either yields a value or reports an error. */
module Wrappers {

  datatype Option<+T> = None | Some(value: T)

  datatype Result<+R, +E> = Success(value: R) | Failure(error: E)
}
